=== FILE: README.md ===
# mBank backend: transfers, queries and registration in Dafny

This project models the money-moving core of a small online-banking backend.
That backend is a Node/Express REST service over MongoDB. The model covers:

- **PIN-gated transfer** (`POST /transaction`, `makeTransactionWithPIN`). It checks the caller, the request fields, the PIN, the two accounts, the balance, and the limit of the card related to the source account. Then it debits the source, credits the destination and records one transaction.
- **Internal transfer** (`internalTransaction`). It moves money between a user's own current account and deposit account, and records a `"Transfer"` transaction.
- **Read side**:
  - the three most recent transactions (`getRecentTransactions`)
  - the 30-day history with its optional time or type filter (`getAllTransactions`)
  - the balance listing (`getUserBalance`)
- **Registration** (`registration`). It creates a user with a generated PIN, a current account and a deposit account of 100 each, a card with limit 1000, and a relation linking that card to the current account. The model also covers the three number generators.

The five collections (users, accounts, transactions, cards, relations) form one immutable `Bank` value.

- Unique keys are map keys.
- `accountOrder` records the natural order of the account collection. That order decides what `Account.findOne({ userID })` and `Account.find({ userID })` return.
- Every handler is a pure function of the state and its request. The two transfers return `Result<Bank, Error>`, and a failure leaves the state as it was. Registration returns the new state together with the issued PIN. The read handlers return their selection: `Recent` and `History` a `Result` of records, `Balances` a list of entries.
- Values the handlers draw from their environment are explicit parameters: the transaction identifier, the clock, random digits and the password hash.

Modules:

- `Wrappers` holds `Option` and `Result`.
- `Errors` holds the error responses and the "earliest failing check" discipline.
- `Seqs` and `Digits` are generic helpers.
- `Model` holds the documents, the state invariant `Valid`, and the storage-order queries.
- `Finance` models the finance controller.
- `Accounts` models the account controller's registration and generators.
- `Onboarding` relates registration to what the finance handlers need.

Behaviours of the code that are easy to misread:

- The PIN transfer looks the user up **before** it checks the request fields. So an unknown user gets 404 even when fields are missing.
- When the source account has no relation, the PIN transfer dereferences `null` (financeController.js:91). The catch block then answers 500 (`InternalError`), not a not-found error.
- Amounts are not required to be positive. A negative amount passes every check (`NegativeAmountIsAccepted`).
- The PIN transfer does not check that the source account belongs to the caller. The model does not add that check.

## Model

| member | source | states |
|---|---|---|
| Finance.PinTransfer | controllers/financeController.js:56-123 | On success the caller exists, all five fields are truthy, the PIN equals the stored one, and the source covers the amount. Only the two accounts change, by -amount and +amount. Exactly one record with the request's fields, id and time is appended to the log. |
| Finance.PinTransferFollowsCheckOrder | controllers/financeController.js:61-99 | The PIN transfer fails with exactly the earliest failing of its nine checks: user, fields, PIN, same account, accounts exist, funds, relation, card, limit. It succeeds iff none fails. |
| Finance.LimitRejectsOnlyAboveTruthyLimit | controllers/financeController.js:97-99 | An absent or zero card limit never rejects. An amount equal to the limit is not rejected. |
| Finance.FalsyAmountIsMissingField | controllers/financeController.js:61-69 | For an existing user, a missing or zero amount is reported as missing fields, whatever else the request holds. |
| Finance.NegativeAmountIsAccepted | controllers/financeController.js:67-117 | A negative amount passes every check once the others hold, and the destination's balance goes down. |
| Finance.InternalTransfer | controllers/financeController.js:206-278 | On success the fields are truthy and the user owns exactly two accounts, source and destination among them. The source covers the amount. Only those two balances change, by -amount and +amount. One `"Transfer"` record is appended. |
| Finance.InternalTransferFollowsCheckOrder | controllers/financeController.js:210-247 | The internal transfer fails with exactly the earliest failing of its eight checks: fields, two accounts, both types present, same account, deposit funds, current funds, source, destination. It succeeds iff none fails. |
| Finance.FindByType | controllers/financeController.js:220-221 | Returns the first owned account of the requested type: every account before it has another type. Returns none when no owned account has that type. |
| Finance.MovedConservesTotal | controllers/financeController.js:111-115 | Debiting one listed account and crediting another by the same amount leaves the bank's total unchanged. |
| Finance.PinTransferConservesTotal | controllers/financeController.js:111-117 | A successful PIN transfer leaves the sum of all balances unchanged. |
| Finance.InternalTransferConservesTotal | controllers/financeController.js:249-262 | A successful internal transfer leaves the sum of all balances unchanged. |
| Finance.PinTransferPreservesValid | controllers/financeController.js:101-117 | With a fresh transaction id, a PIN transfer keeps every reference and uniqueness constraint of the state. |
| Finance.InternalTransferPreservesValid | controllers/financeController.js:249-272 | With a fresh transaction id, an internal transfer keeps every reference and uniqueness constraint of the state. |
| Finance.InvolvingOrdered | controllers/financeController.js:184-189 | The transactions involving an account keep the log's storage order, so the recent list reverses the genuinely newest records. |
| Finance.Recent | controllers/financeController.js:174-189 | Fails iff the user has no account; the 500 for a dangling record is under "Left out". Otherwise it returns the last min(3, n) of the n transactions involving the user's first account, newest first. |
| Finance.RecentAfterPinTransfer | controllers/financeController.js:184-189 | After a PIN transfer into or out of a user's first account, that user's recent list is the new record followed by the two previously newest. |
| Finance.History | controllers/financeController.js:127-155 | Fails iff the user has no account; the 500 for a dangling record is under "Left out". Every returned record involves the user's first account, lies in the 30-day window, and comes from the log. The result is no longer than that window. |
| Finance.HistoryTypeFilter | controllers/financeController.js:153-154 | With the type filter active, history holds exactly the window's records whose type equals the requested one, in the window's order. The window itself keeps the log's storage order (`Finance.Window`), so the result is oldest first. |
| Finance.Window | controllers/financeController.js:137-143 | A record is in the window iff it is in the log, involves the account and is no older than 30 days. Any two records in the window appear in the log in the same relative order: oldest first, as `Transaction.find` returns them. |
| Finance.HistoryUnfiltered | controllers/financeController.js:137-143 | Without an active secondary filter, history is exactly the 30-day window, whose records keep the log's storage order (`Finance.Window`). |
| Finance.HistoryUnknownTimeIsEmpty | controllers/financeController.js:145-152 | A time filter other than all, day or week yields an empty list, because the cutoff date is invalid. |
| Finance.Balances | controllers/financeController.js:281-289 | One entry per owned account in storage order, with that account's number, balance and type. |
| Finance.RecentRecordsResolve | controllers/financeController.js:191-195 | In a valid state every record the recent list returns names two stored accounts, so the owner lookups cannot throw. |
| Finance.HistoryRecordsResolve | controllers/financeController.js:157-161 | In a valid state every record the history returns names two stored accounts, so the owner lookups cannot throw. |
| Finance.BalancesListOwnedAccounts | controllers/financeController.js:285-289 | In a valid state the listing names every account the user owns, only those, and each once. |
| Model.UserAccounts | controllers/financeController.js:215 | An account number is listed iff it is stored and owned by the user. Listed accounts keep their storage order. |
| Model.PrimaryAccount | controllers/financeController.js:178 | None iff the user owns no account. Otherwise it is the user's first account in storage order: no account stored before it is theirs. |
| Model.FirstRelation | controllers/financeController.js:90 | None iff no relation names the account. Otherwise it is the earliest relation naming it. |
| Accounts.GeneratePin | controllers/accountController.js:82-84 | The PIN is four decimal digits whose value is 1000 plus the random draw. |
| Accounts.AccountNumber | controllers/accountController.js:90-94 | All digits: the clock reading in decimal followed by a 4-character zero-padded draw. Both halves read back to their values. |
| Accounts.CardNumberRoundTrip | controllers/accountController.js:96-108 | A card number has '-' exactly at positions 4, 9 and 14 and digits elsewhere, and its digits read back to the drawn ones. |
| Accounts.GenerateCardNumber | controllers/accountController.js:96-108 | The loop builds exactly the 19-character positional card number of the drawn digits. |
| Accounts.Register | controllers/accountController.js:6-79 | Missing fields or a taken email fail with those errors. Success holds iff the fields are filled, the email is free, and the id and PIN are unused. On success the issued PIN is stored with the user, existing users and accounts are kept, and the log is untouched. What exactly it inserts is stated by `Onboarding.RegisterKeepsExisting`. |
| Onboarding.RegisterKeepsExisting | controllers/accountController.js:37-72 | Registration inserts exactly its five documents. The users gain only the new id, the accounts only the current and the deposit number, appended to the order in that sequence, and the cards only the new card. The relations gain exactly one entry, linking the new card to the current account. Stored cards are kept unchanged. |
| Onboarding.RegisterPreservesValid | controllers/accountController.js:26-72 | Registration keeps every reference and uniqueness constraint of the state. |
| Onboarding.RegisteredUserAccounts | controllers/accountController.js:37-53 | The new user owns exactly the current account and then the deposit account, each holding 100 with its type. The current account is the user's first account. |
| Onboarding.RegisteredCardGuardsCurrent | controllers/accountController.js:55-72 | The first relation of the new current account names the new card, which is stored with limit 1000. |
| Onboarding.RegisteredUserBalances | controllers/accountController.js:37-53 | A new user's balance listing is the current account and then the deposit account, 100 each with their types. |
| Onboarding.RegisteredUserHasNoHistory | controllers/accountController.js:37-44 | A new user's recent list is empty. |
| Onboarding.InternalTransferOnOwnPair | controllers/financeController.js:215-262 | A user owning exactly a current and then a deposit account, each covering a non-zero amount, can transfer it between them in either direction. |
| Onboarding.PinTransferOnCardedAccount | controllers/financeController.js:61-117 | The right PIN, a covered amount within a 1000 limit and a card-related source account make the PIN transfer succeed. |
| Onboarding.PinTransferOnUncardedAccount | controllers/financeController.js:88-91 | When every earlier check passes but no relation names the source account, the PIN transfer answers 500 (`InternalError`), as reading the card number of a null relation throws. |
| Onboarding.RegistrationEnablesInternalTransfer | controllers/accountController.js:37-53 | After registration, any non-zero amount up to 100 can be transferred between the two new accounts, in both directions. |
| Onboarding.RegistrationEnablesPinTransfer | controllers/accountController.js:24-72 | After registration, a PIN transfer from the new current account with the issued PIN, sent as a string, succeeds for any non-zero amount up to 100. |
| Onboarding.RegisteredDepositHasNoCard | controllers/accountController.js:64-72 | Registration links its card to the current account only. So a new user's PIN transfer out of the new deposit account, with the issued PIN and a covered amount, answers 500. |

## Left out

- HTTP, routing, JSON shapes and response messages are left out. Each error response is one `Error` constructor, and `Errors.Status` gives its status code.
- Authentication is left out: login, JWT issuance, `authenticateToken`, and bcrypt. The password hash is a parameter of registration.
- MongoDB I/O and `async` are left out. A handler's writes happen all at once. A crash between `save()` calls, which leaves a debited source without a credited destination, is not modelled.
- Concurrency is left out. Two interleaved transfers can lose an update in the source, but each handler here is one atomic step.
- `uuid.v4()`, `Math.random()` and `Date.now()` are not modelled. Their results are parameters: the transaction id, random digits, clock readings and the card's expiry instant.
- Floating point is not modelled. Amounts and balances are integers, and a NaN amount or a fractional draw is not represented.
- A string amount is not represented. The handlers accept one, because `!amount` is false for a string such as "50". The debit then subtracts numerically (financeController.js:111, 250, 252), but the credit concatenates strings (financeController.js:114, 256, 258). So 100 + "50" becomes "10050", Mongoose stores 10050, and money is created.
- Enrichment of the returned records is left out: the sender and receiver names and the ISO date strings (financeController.js:157-165, 191-198). A missing user only yields 'Unknown'. A missing account does matter; see the next two lines.
- Finance.Recent: does not model the 500 answer the owner lookups give when a selected record names an account that is not stored (financeController.js:192-194). `Valid` excludes such records (`RecentRecordsResolve`), and every modelled handler preserves `Valid`.
- Finance.History: does not model the 500 answer the owner lookups give when a selected record names an account that is not stored (financeController.js:158-160). `Valid` excludes such records (`HistoryRecordsResolve`), and every modelled handler preserves `Valid`.
- `getUserCards`, the account lookup endpoint, phone-number update and login are outside the modelled core. So are the route table and server bootstrap.
- Finance.PinTransfer: the PIN is compared as a string. The source compares with `!==`, so a PIN sent as a JSON number never equals the stored string and is always rejected as incorrect. The model does not represent a numeric PIN in the body.
- Finance.PinTransfer: account numbers in the body are strings in the model. The source compares `accountFrom === accountTo` strictly (financeController.js:75), but the lookups at financeController.js:79-80 and :90 let Mongoose cast a JSON number to the string field. So `accountFrom: 123456` with `accountTo: "123456"` passes the same-account check and loads one account as two documents. The debit is saved first and the credit from the second copy overwrites it (financeController.js:111-115). The account ends at its balance plus the amount, and the bank's total grows. Neither this bypass nor the broken conservation on it is modelled.
- Finance.PinTransfer: body fields that are JSON objects are not represented. The body parser accepts them (server.js:14), so `accountFrom` can be a query operator such as `{"$ne": "A"}`. Such an object is truthy (financeController.js:67) and never `===` a string (:75). The lookups at :79 and :90 then treat it as a filter. They select the first account whose number is not "A", and separately the first such relation, so the card checked may guard a different account from the one debited. Both balances are saved (:111-115). Then saving the record throws, because the object cannot be cast to the string field `accountFrom` (model.js:30), and the catch answers 500. The money has left an account the caller never named, no record is written, and the answer is a failure. So on such input the model's promises that a failure leaves the state unchanged and that a move appends exactly one record do not hold for the source.
- Finance.PinTransfer: a relation that names a card missing from the card store gives `CardNotFound`. A relation that is missing altogether gives `InternalError`, as the null dereference does.
- Accounts.Register: account and card numbers are assumed not to clash with stored ones, by a precondition. In the source such a clash throws after some documents are already saved, which the atomic model cannot represent. A clash of the user id or the PIN throws at the first save and gives `InternalError`.
- Accounts.Register: the answer carries the PIN as a JSON number, because `generatePIN` returns `Math.floor(…)` (accountController.js:83) and :74 sends it as is. Only the stored user document holds its string form. The model returns that string. A client that echoes the numeric PIN back to the PIN transfer fails the strict comparison at financeController.js:71 and gets 401.
- Accounts.Register: the phone number, registration date and last-login date are not stored. Nothing in the modelled core reads them.
- The account schema's default balance of 0 (model.js:22) is not modelled, because every account the core creates has an explicit balance of 100.

=== FILE: accounts.dfy ===
/**
 * The account controller's registration and its number generators. Random
 * draws and clock readings are parameters; password hashing is external and
 * arrives as its result.
 */
module Accounts {
  import opened Wrappers
  import opened Errors
  import opened Digits
  import opened Model

  /** The balance each new account opens with. */
  const InitialBalance: int := 100

  /** The limit of the card issued at registration. */
  const CardLimit: int := 1000

  // ---------------------------------------------------------------------------
  // Generators

  /**
   * `generatePIN`: `Math.floor(1000 + Math.random() * 9000)`, where `draw` is
   * `floor(Math.random() * 9000)`, stored as a string by the user schema.
   */
  function GeneratePin(draw: int): (pin: string)
    requires 0 <= draw < 9000
    ensures |pin| == 4 && AllDigits(pin)
    ensures ParseNat(pin) == 1000 + draw
  {
    assert Pow10(3) == 1000 && Pow10(4) == 10000;
    NatToStringAtMost(1000 + draw, 4);
    NatToStringAtLeast(1000 + draw, 3);
    ParseNatToString(1000 + draw);
    NatToString(1000 + draw)
  }

  /**
   * `generateAccountNumber`: the clock reading `stamp` in decimal followed by
   * `draw` (`floor(Math.random() * 10000)`) left-padded with '0' to four characters.
   */
  function AccountNumber(stamp: nat, draw: int): (n: string)
    requires 0 <= draw < 10000
    ensures |n| == |NatToString(stamp)| + 4 && AllDigits(n)
    ensures n[..|NatToString(stamp)|] == NatToString(stamp)
    ensures ParseNat(n[..|NatToString(stamp)|]) == stamp
    ensures ParseNat(n[|NatToString(stamp)|..]) == draw
  {
    var prefix := NatToString(stamp);
    var digits := NatToString(draw);
    assert Pow10(4) == 10000;
    NatToStringAtMost(draw, 4);
    var suffix := PadStart(digits, 4, '0');
    assert suffix == Repeat('0', 4 - |digits|) + digits;
    ParseNatLeadingZeros(4 - |digits|, digits);
    ParseNatToString(draw);
    ParseNatToString(stamp);
    var n := prefix + suffix;
    assert n[..|prefix|] == prefix && n[|prefix|..] == suffix;
    n
  }

  /** Sixteen decimal digit draws. */
  predicate CardDigits(digits: seq<int>) {
    |digits| == 16 && forall k :: 0 <= k < 16 ==> 0 <= digits[k] < 10
  }

  /**
   * The card number for the given digits, position by position: a '-' at every
   * fifth position, the digits in order everywhere else.
   */
  function CardNumberOf(digits: seq<int>): (s: string)
    requires CardDigits(digits)
    ensures |s| == 19
  {
    seq(19, p requires 0 <= p < 19 => if p % 5 == 4 then '-' else DigitChar(digits[p - p / 5]))
  }

  /** The digits read back from a card number, skipping the separators. */
  function CardDigitsOf(s: string): seq<int>
    requires |s| == 19 && forall p :: 0 <= p < 19 && p % 5 != 4 ==> IsDigit(s[p])
  {
    seq(16, k requires 0 <= k < 16 => DigitValue(s[k + k / 4]))
  }

  /** A card number is four groups of four digits joined by '-', and its digits read back unchanged. */
  lemma CardNumberRoundTrip(digits: seq<int>)
    requires CardDigits(digits)
    ensures forall p :: 0 <= p < 19 ==> (CardNumberOf(digits)[p] == '-' <==> p in {4, 9, 14})
    ensures forall p :: 0 <= p < 19 && p % 5 != 4 ==> IsDigit(CardNumberOf(digits)[p])
    ensures CardDigitsOf(CardNumberOf(digits)) == digits
  {
    var s := CardNumberOf(digits);
    forall p | 0 <= p < 19
      ensures s[p] == '-' <==> p in {4, 9, 14}
    {
      if p % 5 != 4 {
        assert IsDigit(s[p]);
      }
    }
    forall k | 0 <= k < 16
      ensures CardDigitsOf(s)[k] == digits[k]
    {
      var p := k + k / 4;
      assert p % 5 != 4 && p - p / 5 == k;
    }
  }

  /**
   * `generateCreditCardNumber`: sixteen digits, with a '-' after the 4th, 8th
   * and 12th but not after the last.
   */
  method GenerateCardNumber(digits: seq<int>) returns (s: string)
    requires CardDigits(digits)
    ensures s == CardNumberOf(digits)
  {
    s := "";
    var i := 0;
    while i < 16
      invariant 0 <= i <= 16
      invariant |s| == i + (if i / 4 < 3 then i / 4 else 3)
      invariant s == CardNumberOf(digits)[..|s|]
    {
      var p := |s|;
      assert p == i + i / 4 && p % 5 != 4 && p - p / 5 == i;
      s := s + [DigitChar(digits[i])];
      if (i + 1) % 4 == 0 && i != 15 {
        assert (p + 1) % 5 == 4;
        s := s + "-";
      }
      i := i + 1;
    }
  }

  // ---------------------------------------------------------------------------
  // Registration

  /** The body of `POST /register`. */
  datatype RegistrationRequest = RegistrationRequest(
    email: Option<string>,
    password: Option<string>,
    firstName: Option<string>,
    lastName: Option<string>)

  /** What registration draws from its environment: identifiers, random numbers, clock readings, the password hash. */
  datatype Draws = Draws(
    userId: UserId,
    pinDraw: int,
    currentStamp: nat,
    currentDraw: int,
    depositStamp: nat,
    depositDraw: int,
    cardDigits: seq<int>,
    passwordHash: string,
    expiry: Millis)

  predicate DrawsInRange(g: Draws) {
    0 <= g.pinDraw < 9000 && 0 <= g.currentDraw < 10000 && 0 <= g.depositDraw < 10000 && CardDigits(g.cardDigits)
  }

  function CurrentNumber(g: Draws): AccountNumber
    requires DrawsInRange(g)
  {
    AccountNumber(g.currentStamp, g.currentDraw)
  }

  function DepositNumber(g: Draws): AccountNumber
    requires DrawsInRange(g)
  {
    AccountNumber(g.depositStamp, g.depositDraw)
  }

  function NewCard(g: Draws): CardNumber
    requires DrawsInRange(g)
  {
    CardNumberOf(g.cardDigits)
  }

  /** The numbers registration will insert do not clash with stored ones or with each other. */
  predicate FreshNumbers(b: Bank, g: Draws)
    requires DrawsInRange(g)
  {
    && CurrentNumber(g) != DepositNumber(g)
    && CurrentNumber(g) !in b.accounts && DepositNumber(g) !in b.accounts
    && NewCard(g) !in b.cards
  }

  predicate RegistrationFieldsFilled(q: RegistrationRequest) {
    && q.email.Some? && q.email.value != ""
    && q.password.Some? && q.password.value != ""
    && q.firstName.Some? && q.firstName.value != ""
    && q.lastName.Some? && q.lastName.value != ""
  }

  predicate EmailTaken(b: Bank, email: string) {
    exists u :: u in b.users && b.users[u].email == email
  }

  predicate PinTaken(b: Bank, pin: string) {
    exists u :: u in b.users && b.users[u].pin == pin
  }

  /** A successful registration answers with the new state and the PIN it issued. */
  datatype Registered = Registered(bank: Bank, pin: string)

  /**
   * `registration`. The user's identifier and PIN are unique in the user
   * schema, so a clash makes the first save throw before anything is written.
   */
  function Register(b: Bank, q: RegistrationRequest, g: Draws): (r: Result<Registered, Error>)
    requires DrawsInRange(g) && FreshNumbers(b, g)
    ensures !RegistrationFieldsFilled(q) ==> r == Failure(MissingFields)
    ensures RegistrationFieldsFilled(q) && EmailTaken(b, q.email.value) ==> r == Failure(EmailInUse)
    ensures r.Success? <==>
      RegistrationFieldsFilled(q) && !EmailTaken(b, q.email.value) && g.userId !in b.users && !PinTaken(b, GeneratePin(g.pinDraw))
    ensures r.Success? ==> r.value.pin == GeneratePin(g.pinDraw) && r.value.bank.log == b.log
    ensures r.Success? ==>
      g.userId in r.value.bank.users && r.value.bank.users[g.userId].email == q.email.value &&
      r.value.bank.users[g.userId].pin == r.value.pin
    ensures r.Success? ==> forall u :: u in b.users ==> u in r.value.bank.users && r.value.bank.users[u] == b.users[u]
    ensures r.Success? ==> forall n :: n in b.accounts ==> n in r.value.bank.accounts && r.value.bank.accounts[n] == b.accounts[n]
  {
    if !RegistrationFieldsFilled(q) then Failure(MissingFields)
    else if EmailTaken(b, q.email.value) then Failure(EmailInUse)
    else
      var pin := GeneratePin(g.pinDraw);
      if g.userId in b.users || PinTaken(b, pin) then Failure(InternalError)
      else
        var user := User(q.email.value, g.passwordHash, q.firstName.value, q.lastName.value, pin);
        Success(Registered(Enrol(b, g.userId, user, CurrentNumber(g), DepositNumber(g), NewCard(g), g.expiry), pin))
  }

  /**
   * The documents a successful registration saves, in order: the user, the
   * current account, the deposit account, the card, and the relation linking
   * the card to the current account.
   */
  function Enrol(b: Bank, uid: UserId, user: User, cur: AccountNumber, dep: AccountNumber, card: CardNumber, expiry: Millis): Bank {
    b.(users := b.users[uid := user],
       accounts := b.accounts[cur := Account(uid, InitialBalance, Some(CurrentAccount))]
                             [dep := Account(uid, InitialBalance, Some(DepositAccount))],
       accountOrder := b.accountOrder + [cur, dep],
       cards := b.cards[card := CreditCard(uid, Some(CardLimit), Some(expiry))],
       relations := b.relations + [Relation(uid, card, cur)])
  }
}

=== FILE: digits.dfy ===
/** Decimal strings: what Number.prototype.toString and padStart produce for naturals. */
module Digits {

  predicate IsDigit(c: char) {
    '0' <= c <= '9'
  }

  predicate AllDigits(s: string) {
    forall i :: 0 <= i < |s| ==> IsDigit(s[i])
  }

  function DigitChar(d: int): (c: char)
    requires 0 <= d < 10
    ensures IsDigit(c)
  {
    (('0' as int) + d) as char
  }

  function DigitValue(c: char): (d: int)
    requires IsDigit(c)
    ensures 0 <= d < 10
  {
    (c as int) - ('0' as int)
  }

  /** The decimal representation of `n`, most significant digit first, without leading zeros. */
  function NatToString(n: nat): (s: string)
    ensures |s| >= 1 && AllDigits(s)
  {
    if n < 10 then [DigitChar(n)] else NatToString(n / 10) + [DigitChar(n % 10)]
  }

  /** The natural number a string of decimal digits denotes (leading zeros allowed). */
  function ParseNat(s: string): nat
    requires AllDigits(s)
  {
    if s == [] then 0 else 10 * ParseNat(s[..|s| - 1]) + DigitValue(s[|s| - 1])
  }

  function Pow10(k: nat): (p: nat)
    ensures p >= 1
  {
    if k == 0 then 1 else 10 * Pow10(k - 1)
  }

  /** `width` copies of the character `c`. */
  function Repeat(c: char, width: nat): (s: string)
    ensures |s| == width
    ensures forall i :: 0 <= i < width ==> s[i] == c
  {
    if width == 0 then [] else [c] + Repeat(c, width - 1)
  }

  /** String.prototype.padStart: left-pad `s` with `c` up to `width` characters. */
  function PadStart(s: string, width: nat, c: char): (r: string)
    ensures |r| == if |s| >= width then |s| else width
    ensures r[|r| - |s|..] == s
    ensures forall i :: 0 <= i < |r| - |s| ==> r[i] == c
  {
    if |s| >= width then s else Repeat(c, width - |s|) + s
  }

  /** Parsing undoes printing. */
  lemma {:induction false} ParseNatToString(n: nat)
    ensures ParseNat(NatToString(n)) == n
  {
    if n >= 10 {
      var s := NatToString(n);
      assert s[..|s| - 1] == NatToString(n / 10);
      ParseNatToString(n / 10);
    }
  }

  /** A number below 10^k prints with at most k digits. */
  lemma {:induction false} NatToStringAtMost(n: nat, k: nat)
    requires k >= 1 && n < Pow10(k)
    ensures |NatToString(n)| <= k
  {
    if n >= 10 {
      NatToStringAtMost(n / 10, k - 1);
    }
  }

  /** A number at least 10^k prints with more than k digits. */
  lemma {:induction false} NatToStringAtLeast(n: nat, k: nat)
    requires n >= Pow10(k)
    ensures |NatToString(n)| > k
  {
    if k > 0 {
      NatToStringAtLeast(n / 10, k - 1);
    }
  }

  /** Leading zeros do not change the value of a digit string. */
  lemma {:induction false} ParseNatLeadingZeros(z: nat, s: string)
    requires AllDigits(s)
    ensures AllDigits(Repeat('0', z) + s)
    ensures ParseNat(Repeat('0', z) + s) == ParseNat(s)
  {
    var t := Repeat('0', z) + s;
    if s == [] {
      assert t == Repeat('0', z);
      ParseNatZeros(z);
    } else {
      assert t[..|t| - 1] == Repeat('0', z) + s[..|s| - 1];
      ParseNatLeadingZeros(z, s[..|s| - 1]);
    }
  }

  lemma {:induction false} ParseNatZeros(z: nat)
    ensures AllDigits(Repeat('0', z))
    ensures ParseNat(Repeat('0', z)) == 0
  {
    if z > 0 {
      var s := Repeat('0', z);
      assert s[..|s| - 1] == Repeat('0', z - 1);
      ParseNatZeros(z - 1);
    }
  }
}

=== FILE: errors.dfy ===
/**
 * The error responses of the two controllers, and the "earliest failing check"
 * discipline that both transfer handlers follow.
 */
module Errors {
  import opened Wrappers

  /** One constructor per distinct error response the handlers send. */
  datatype Error =
    | MissingFields              // 400 'All fields must be filled' / 'All fields are required.'
    | UserNotFound               // 404 'User not found'
    | IncorrectPin               // 401 'Incorrect PIN'
    | SameAccount                // 400 'Source and destination accounts cannot be the same'
    | AccountNotFound            // 404 'One or more accounts not found'
    | InsufficientFunds          // 400 'Insufficient funds'
    | CardNotFound               // 404 'Credit card not found'
    | LimitExceeded              // 400 'Transaction amount exceeds card limit'
    | UserAccountsNotFound       // 404 'User accounts not found'
    | DepositOrCurrentNotFound   // 404 'Deposit or current account not found'
    | InsufficientDeposit        // 400 'Insufficient funds in deposit account'
    | InsufficientCurrent        // 400 'Insufficient funds in current account'
    | InvalidSource              // 400 'Invalid source account'
    | InvalidDestination         // 400 'Invalid destination account'
    | UserAccountNotFound        // 404 'User account not found'
    | EmailInUse                 // 400 'Email address already in use.'
    | InternalError              // 500, anything thrown inside the handler's try block

  /** The HTTP status each error is reported with. */
  function Status(e: Error): int {
    match e
    case IncorrectPin => 401
    case UserNotFound | AccountNotFound | CardNotFound | UserAccountsNotFound
      | DepositOrCurrentNotFound | UserAccountNotFound => 404
    case InternalError => 500
    case _ => 400
  }

  /** One validation step: whether it fails on the given input, and what it reports then. */
  datatype Check = Check(failed: bool, error: Error)

  /** The index of the earliest failing check, if any fails. */
  function FirstFailed(cs: seq<Check>): (i: Option<nat>)
    ensures i.Some? ==> i.value < |cs| && cs[i.value].failed
    ensures i.Some? ==> forall j :: 0 <= j < i.value ==> !cs[j].failed
    ensures i.None? ==> forall j :: 0 <= j < |cs| ==> !cs[j].failed
  {
    if cs == [] then None
    else if cs[0].failed then Some(0)
    else
      match FirstFailed(cs[1..])
      case None => None
      case Some(k) => Some(k + 1)
  }

  /** The error a handler following the checks `cs` in order reports, if any. */
  function Verdict(cs: seq<Check>): Option<Error> {
    match FirstFailed(cs)
    case None => None
    case Some(i) => Some(cs[i].error)
  }

  /** A failing check preceded only by passing ones is the one reported. */
  lemma VerdictAt(cs: seq<Check>, k: nat)
    requires k < |cs| && cs[k].failed
    requires forall j :: 0 <= j < k ==> !cs[j].failed
    ensures Verdict(cs) == Some(cs[k].error)
  {
  }

  /** With the first three checks passing, the verdict is the first of the remaining five to fail. */
  lemma VerdictAfterThree(cs: seq<Check>)
    requires |cs| == 8 && !cs[0].failed && !cs[1].failed && !cs[2].failed
    ensures Verdict(cs) ==
      if cs[3].failed then Some(cs[3].error)
      else if cs[4].failed then Some(cs[4].error)
      else if cs[5].failed then Some(cs[5].error)
      else if cs[6].failed then Some(cs[6].error)
      else if cs[7].failed then Some(cs[7].error)
      else None
  {
    if cs[3].failed {
      VerdictAt(cs, 3);
    } else if cs[4].failed {
      VerdictAt(cs, 4);
    } else if cs[5].failed {
      VerdictAt(cs, 5);
    } else if cs[6].failed {
      VerdictAt(cs, 6);
    } else if cs[7].failed {
      VerdictAt(cs, 7);
    }
  }

  /** When every check passes nothing is reported. */
  lemma VerdictNone(cs: seq<Check>)
    requires forall j :: 0 <= j < |cs| ==> !cs[j].failed
    ensures Verdict(cs) == None
  {
  }
}

=== FILE: finance.dfy ===
/**
 * The finance controller: the PIN-gated transfer, the internal transfer
 * between a user's own two accounts, and the read-side selections of the
 * recent-transactions, history and balance endpoints.
 */
module Finance {
  import opened Wrappers
  import opened Errors
  import opened Seqs
  import opened Model

  /** The transaction type an internal transfer records. */
  const TransferType: string := "Transfer"

  /** 30 days in milliseconds: the history window. */
  const ThirtyDays: int := 30 * 24 * 60 * 60 * 1000
  const OneDay: int := 24 * 60 * 60 * 1000
  const OneWeek: int := 7 * 24 * 60 * 60 * 1000

  /** JavaScript truthiness of a string body field: absent and '' are falsy. */
  predicate Filled(f: Option<string>) {
    f.Some? && f.value != ""
  }

  /** JavaScript truthiness of a numeric body field: absent and 0 are falsy. */
  predicate FilledAmount(a: Option<int>) {
    a.Some? && a.value != 0
  }

  /** The body of `POST /transaction`. */
  datatype PinRequest = PinRequest(
    from: Option<AccountNumber>,
    to: Option<AccountNumber>,
    amount: Option<int>,
    pin: Option<string>,
    transactionType: Option<string>)

  /** The body of `POST /transactions/internal-transfer`. */
  datatype InternalRequest = InternalRequest(from: Option<AccountNumber>, to: Option<AccountNumber>, amount: Option<int>)

  predicate PinFieldsFilled(q: PinRequest) {
    Filled(q.from) && Filled(q.to) && FilledAmount(q.amount) && Filled(q.pin) && Filled(q.transactionType)
  }

  predicate InternalFieldsFilled(q: InternalRequest) {
    Filled(q.from) && Filled(q.to) && FilledAmount(q.amount)
  }

  /** The card-limit test: only a truthy limit (present and non-zero) can reject, and only a strictly larger amount. */
  predicate OverLimit(limit: Option<int>, amount: int) {
    limit.Some? && limit.value != 0 && amount > limit.value
  }

  /**
   * `b'` is `b` with `amount` moved from account `from` to account `to`:
   * only those two balances change, and nothing but accounts and the log differs.
   */
  ghost predicate Moved(b: Bank, b': Bank, from: AccountNumber, to: AccountNumber, amount: int) {
    && from in b.accounts && to in b.accounts && from != to
    && b'.accounts.Keys == b.accounts.Keys
    && b'.accounts[from] == b.accounts[from].(balance := b.accounts[from].balance - amount)
    && b'.accounts[to] == b.accounts[to].(balance := b.accounts[to].balance + amount)
    && (forall n :: n in b.accounts && n != from && n != to ==> b'.accounts[n] == b.accounts[n])
    && b'.users == b.users && b'.accountOrder == b.accountOrder
    && b'.cards == b.cards && b'.relations == b.relations
  }

  /** Debit `from`, credit `to` and append `t`. */
  function Move(b: Bank, from: AccountNumber, to: AccountNumber, amount: int, t: Transaction): (b': Bank)
    requires from in b.accounts && to in b.accounts && from != to
    ensures Moved(b, b', from, to, amount) && b'.log == b.log + [t]
  {
    var source := b.accounts[from];
    var dest := b.accounts[to];
    b.(accounts := b.accounts[from := source.(balance := source.balance - amount)][to := dest.(balance := dest.balance + amount)],
       log := b.log + [t])
  }

  // ---------------------------------------------------------------------------
  // PIN-gated transfer

  /**
   * `makeTransactionWithPIN` for the authenticated user `uid`; `id` is the
   * freshly drawn transaction identifier and `now` the creation time.
   */
  function PinTransfer(b: Bank, uid: UserId, q: PinRequest, id: string, now: Millis): (r: Result<Bank, Error>)
    ensures r.Success? ==> uid in b.users && PinFieldsFilled(q) && q.pin == Some(b.users[uid].pin)
    ensures r.Success? ==> Moved(b, r.value, q.from.value, q.to.value, q.amount.value)
    ensures r.Success? ==> b.accounts[q.from.value].balance >= q.amount.value
    ensures r.Success? ==>
      r.value.log == b.log + [Transaction(id, q.from.value, q.to.value, q.amount.value, q.transactionType, now)]
  {
    if uid !in b.users then Failure(UserNotFound)
    else if !PinFieldsFilled(q) then Failure(MissingFields)
    else if q.pin != Some(b.users[uid].pin) then Failure(IncorrectPin)
    else if q.from == q.to then Failure(SameAccount)
    else
      var from, to, amount := q.from.value, q.to.value, q.amount.value;
      if from !in b.accounts || to !in b.accounts then Failure(AccountNotFound)
      else if b.accounts[from].balance < amount then Failure(InsufficientFunds)
      else
        match FirstRelation(b.relations, from)
        // No relation: reading `creditCardNumber` of null throws, and the catch answers 500.
        case None => Failure(InternalError)
        case Some(rel) =>
          if rel.card !in b.cards then Failure(CardNotFound)
          else if OverLimit(b.cards[rel.card].limit, amount) then Failure(LimitExceeded)
          else Success(Move(b, from, to, amount, Transaction(id, from, to, amount, q.transactionType, now)))
  }

  /** The account in field `f` exists. */
  predicate Known(b: Bank, f: Option<AccountNumber>) {
    f.Some? && f.value in b.accounts
  }

  /** The card the first relation of the source account names, when there is one. */
  function LinkedCard(b: Bank, q: PinRequest): Option<CardNumber> {
    if q.from.None? then None
    else match FirstRelation(b.relations, q.from.value)
      case None => None
      case Some(rel) => Some(rel.card)
  }

  /**
   * The PIN transfer's checks, each stated on its own, in the order the
   * handler runs them.
   */
  function PinChecks(b: Bank, uid: UserId, q: PinRequest): seq<Check> {
    [ Check(uid !in b.users, UserNotFound),
      Check(!PinFieldsFilled(q), MissingFields),
      Check(uid in b.users && q.pin != Some(b.users[uid].pin), IncorrectPin),
      Check(q.from == q.to, SameAccount),
      Check(!Known(b, q.from) || !Known(b, q.to), AccountNotFound),
      Check(Known(b, q.from) && q.amount.Some? && b.accounts[q.from.value].balance < q.amount.value, InsufficientFunds),
      Check(q.from.Some? && FirstRelation(b.relations, q.from.value).None?, InternalError),
      Check(LinkedCard(b, q).Some? && LinkedCard(b, q).value !in b.cards, CardNotFound),
      Check(LinkedCard(b, q).Some? && LinkedCard(b, q).value in b.cards && q.amount.Some?
            && OverLimit(b.cards[LinkedCard(b, q).value].limit, q.amount.value), LimitExceeded) ]
  }

  /**
   * A PIN transfer reports exactly the earliest failing check, and succeeds
   * exactly when every check passes.
   */
  lemma PinTransferFollowsCheckOrder(b: Bank, uid: UserId, q: PinRequest, id: string, now: Millis)
    ensures Verdict(PinChecks(b, uid, q)).Some? ==>
      PinTransfer(b, uid, q, id, now) == Failure(Verdict(PinChecks(b, uid, q)).value)
    ensures Verdict(PinChecks(b, uid, q)).None? <==> PinTransfer(b, uid, q, id, now).Success?
  {
    var cs := PinChecks(b, uid, q);
    if uid !in b.users {
      VerdictAt(cs, 0);
    } else if !PinFieldsFilled(q) {
      VerdictAt(cs, 1);
    } else if q.pin != Some(b.users[uid].pin) {
      VerdictAt(cs, 2);
    } else if q.from == q.to {
      VerdictAt(cs, 3);
    } else if q.from.value !in b.accounts || q.to.value !in b.accounts {
      VerdictAt(cs, 4);
    } else if b.accounts[q.from.value].balance < q.amount.value {
      VerdictAt(cs, 5);
    } else if FirstRelation(b.relations, q.from.value).None? {
      VerdictAt(cs, 6);
    } else if LinkedCard(b, q).value !in b.cards {
      VerdictAt(cs, 7);
    } else if OverLimit(b.cards[LinkedCard(b, q).value].limit, q.amount.value) {
      VerdictAt(cs, 8);
    } else {
      VerdictNone(cs);
    }
  }

  /** A card without a truthy limit never rejects, and a limit admits an amount equal to it. */
  lemma LimitRejectsOnlyAboveTruthyLimit(b: Bank, uid: UserId, q: PinRequest, id: string, now: Millis)
    requires LinkedCard(b, q).Some? && LinkedCard(b, q).value in b.cards
    requires var limit := b.cards[LinkedCard(b, q).value].limit;
      limit.None? || limit == Some(0) || (q.amount.Some? && q.amount.value <= limit.value)
    ensures PinTransfer(b, uid, q, id, now) != Failure(LimitExceeded)
  {
  }

  /** A missing or zero amount is turned away by the field check, before the PIN is looked at. */
  lemma FalsyAmountIsMissingField(b: Bank, uid: UserId, q: PinRequest, id: string, now: Millis)
    requires uid in b.users
    requires q.amount.None? || q.amount == Some(0)
    ensures PinTransfer(b, uid, q, id, now) == Failure(MissingFields)
  {
  }

  /**
   * Nothing rejects a negative amount: when every other check passes, the
   * transfer goes through and takes money from the destination account.
   */
  lemma NegativeAmountIsAccepted(b: Bank, uid: UserId, q: PinRequest, id: string, now: Millis)
    requires uid in b.users && PinFieldsFilled(q) && q.pin == Some(b.users[uid].pin)
    requires q.from != q.to && Known(b, q.from) && Known(b, q.to)
    requires q.amount.value < 0 && b.accounts[q.from.value].balance >= 0
    requires LinkedCard(b, q).Some? && LinkedCard(b, q).value in b.cards
    requires b.cards[LinkedCard(b, q).value].limit.None? || b.cards[LinkedCard(b, q).value].limit.value >= 0
    ensures PinTransfer(b, uid, q, id, now).Success?
    ensures PinTransfer(b, uid, q, id, now).value.accounts[q.to.value].balance < b.accounts[q.to.value].balance
  {
  }

  // ---------------------------------------------------------------------------
  // Internal transfer

  /** `userAccounts.find(account => account.accountType === ty)`. */
  function FindByType(b: Bank, owned: seq<AccountNumber>, ty: string): (r: Option<AccountNumber>)
    requires forall n :: n in owned ==> n in b.accounts
    ensures r.Some? ==> r.value in owned && b.accounts[r.value].accountType == Some(ty)
    ensures r.None? ==> forall n :: n in owned ==> b.accounts[n].accountType != Some(ty)
    ensures r.Some? ==> exists i :: (0 <= i < |owned| && owned[i] == r.value &&
      forall j :: 0 <= j < i ==> b.accounts[owned[j]].accountType != Some(ty))
  {
    if owned == [] then None
    else if b.accounts[owned[0]].accountType == Some(ty) then Some(owned[0])
    else FindByType(b, owned[1..], ty)
  }

  /**
   * The internal transfer's update: the source, whichever of the deposit
   * account `d` and the current account `c` it is, is debited, then the
   * destination is credited, and both accounts are written back.
   */
  function Rebalance(b: Bank, d: AccountNumber, c: AccountNumber, from: AccountNumber, to: AccountNumber, amount: int, t: Transaction): (b': Bank)
    requires d in b.accounts && c in b.accounts && d != c
    requires (from == d || from == c) && (to == d || to == c) && from != to
    ensures Moved(b, b', from, to, amount) && b'.log == b.log + [t]
  {
    var deposit, current := b.accounts[d], b.accounts[c];
    var deposit1 := if from == d then deposit.(balance := deposit.balance - amount) else deposit;
    var current1 := if from == d then current else current.(balance := current.balance - amount);
    var deposit2 := if to == d then deposit1.(balance := deposit1.balance + amount) else deposit1;
    var current2 := if to == d then current1 else current1.(balance := current1.balance + amount);
    b.(accounts := b.accounts[d := deposit2][c := current2], log := b.log + [t])
  }

  /** `internalTransaction` for the authenticated user `uid`. */
  function InternalTransfer(b: Bank, uid: UserId, q: InternalRequest, id: string, now: Millis): (r: Result<Bank, Error>)
    ensures r.Success? ==> InternalFieldsFilled(q) && Moved(b, r.value, q.from.value, q.to.value, q.amount.value)
    ensures r.Success? ==>
      |UserAccounts(b, uid)| == 2 && q.from.value in UserAccounts(b, uid) && q.to.value in UserAccounts(b, uid)
    ensures r.Success? ==> b.accounts[q.from.value].balance >= q.amount.value
    ensures r.Success? ==>
      r.value.log == b.log + [Transaction(id, q.from.value, q.to.value, q.amount.value, Some(TransferType), now)]
  {
    if !InternalFieldsFilled(q) then Failure(MissingFields)
    else
      var owned := UserAccounts(b, uid);
      if |owned| != 2 then Failure(UserAccountsNotFound)
      else
        match (FindByType(b, owned, DepositAccount), FindByType(b, owned, CurrentAccount))
        case (Some(depositNumber), Some(currentNumber)) =>
          var from, to, amount := q.from.value, q.to.value, q.amount.value;
          if from == to then Failure(SameAccount)
          else if from == depositNumber && b.accounts[depositNumber].balance < amount then Failure(InsufficientDeposit)
          else if from == currentNumber && b.accounts[currentNumber].balance < amount then Failure(InsufficientCurrent)
          else if from != depositNumber && from != currentNumber then Failure(InvalidSource)
          else if to != depositNumber && to != currentNumber then Failure(InvalidDestination)
          else Success(Rebalance(b, depositNumber, currentNumber, from, to, amount,
                                 Transaction(id, from, to, amount, Some(TransferType), now)))
        case _ => Failure(DepositOrCurrentNotFound)
  }

  /** Some account in `owned` has type `ty`. */
  predicate HasType(b: Bank, owned: seq<AccountNumber>, ty: string) {
    exists n :: n in owned && n in b.accounts && b.accounts[n].accountType == Some(ty)
  }

  /** The source is the user's account of type `ty` and holds less than the amount. */
  predicate ShortOf(b: Bank, owned: seq<AccountNumber>, q: InternalRequest, ty: string) {
    && q.from.Some? && q.amount.Some?
    && q.from.value in owned && q.from.value in b.accounts
    && b.accounts[q.from.value].accountType == Some(ty)
    && b.accounts[q.from.value].balance < q.amount.value
  }

  /** The internal transfer's checks, each stated on its own, in the order the handler runs them. */
  function InternalChecks(b: Bank, uid: UserId, q: InternalRequest): seq<Check> {
    var owned := UserAccounts(b, uid);
    [ Check(!InternalFieldsFilled(q), MissingFields),
      Check(|owned| != 2, UserAccountsNotFound),
      Check(!HasType(b, owned, DepositAccount) || !HasType(b, owned, CurrentAccount), DepositOrCurrentNotFound),
      Check(q.from == q.to, SameAccount),
      Check(ShortOf(b, owned, q, DepositAccount), InsufficientDeposit),
      Check(ShortOf(b, owned, q, CurrentAccount), InsufficientCurrent),
      Check(q.from.Some? && q.from.value !in owned, InvalidSource),
      Check(q.to.Some? && q.to.value !in owned, InvalidDestination) ]
  }

  /**
   * In a two-element list holding a deposit account `d` and a current account
   * `c`, membership and the per-type funds checks reduce to comparisons with `d` and `c`.
   */
  lemma PairMembership(b: Bank, owned: seq<AccountNumber>, q: InternalRequest, d: AccountNumber, c: AccountNumber)
    requires InternalFieldsFilled(q)
    requires |owned| == 2 && d in owned && c in owned
    requires d in b.accounts && b.accounts[d].accountType == Some(DepositAccount)
    requires c in b.accounts && b.accounts[c].accountType == Some(CurrentAccount)
    ensures HasType(b, owned, DepositAccount) && HasType(b, owned, CurrentAccount)
    ensures q.from.value in owned <==> q.from.value == d || q.from.value == c
    ensures q.to.value in owned <==> q.to.value == d || q.to.value == c
    ensures ShortOf(b, owned, q, DepositAccount) <==> q.from.value == d && b.accounts[d].balance < q.amount.value
    ensures ShortOf(b, owned, q, CurrentAccount) <==> q.from.value == c && b.accounts[c].balance < q.amount.value
  {
    assert owned == [owned[0], owned[1]];
  }

  /**
   * When the user owns a deposit account `d` and a current account `c` and
   * nothing else, the later checks reduce to comparisons with `d` and `c`.
   */
  lemma InternalChecksOnPair(b: Bank, uid: UserId, q: InternalRequest, d: AccountNumber, c: AccountNumber)
    requires InternalFieldsFilled(q)
    requires |UserAccounts(b, uid)| == 2
    requires d in UserAccounts(b, uid) && b.accounts[d].accountType == Some(DepositAccount)
    requires c in UserAccounts(b, uid) && b.accounts[c].accountType == Some(CurrentAccount)
    ensures var cs := InternalChecks(b, uid, q);
      && !cs[0].failed && !cs[1].failed && !cs[2].failed
      && (cs[3].failed <==> q.from == q.to)
      && (cs[4].failed <==> q.from.value == d && b.accounts[d].balance < q.amount.value)
      && (cs[5].failed <==> q.from.value == c && b.accounts[c].balance < q.amount.value)
      && (cs[6].failed <==> q.from.value != d && q.from.value != c)
      && (cs[7].failed <==> q.to.value != d && q.to.value != c)
  {
    PairMembership(b, UserAccounts(b, uid), q, d, c);
  }

  /** What an internal transfer answers once the user's deposit account `d` and current account `c` are found. */
  lemma InternalTransferOnPair(b: Bank, uid: UserId, q: InternalRequest, id: string, now: Millis, d: AccountNumber, c: AccountNumber)
    requires InternalFieldsFilled(q)
    requires |UserAccounts(b, uid)| == 2
    requires FindByType(b, UserAccounts(b, uid), DepositAccount) == Some(d)
    requires FindByType(b, UserAccounts(b, uid), CurrentAccount) == Some(c)
    ensures var r := InternalTransfer(b, uid, q, id, now);
      var from, to, amount := q.from.value, q.to.value, q.amount.value;
      if from == to then r == Failure(SameAccount)
      else if from == d && b.accounts[d].balance < amount then r == Failure(InsufficientDeposit)
      else if from == c && b.accounts[c].balance < amount then r == Failure(InsufficientCurrent)
      else if from != d && from != c then r == Failure(InvalidSource)
      else if to != d && to != c then r == Failure(InvalidDestination)
      else r.Success?
  {
  }

  /** The verdict of the internal checks for a user owning a deposit account `d` and a current account `c`. */
  lemma InternalVerdictOnPair(b: Bank, uid: UserId, q: InternalRequest, d: AccountNumber, c: AccountNumber)
    requires InternalFieldsFilled(q)
    requires |UserAccounts(b, uid)| == 2
    requires d in UserAccounts(b, uid) && b.accounts[d].accountType == Some(DepositAccount)
    requires c in UserAccounts(b, uid) && b.accounts[c].accountType == Some(CurrentAccount)
    ensures var v := Verdict(InternalChecks(b, uid, q));
      var from, to, amount := q.from.value, q.to.value, q.amount.value;
      if from == to then v == Some(SameAccount)
      else if from == d && b.accounts[d].balance < amount then v == Some(InsufficientDeposit)
      else if from == c && b.accounts[c].balance < amount then v == Some(InsufficientCurrent)
      else if from != d && from != c then v == Some(InvalidSource)
      else if to != d && to != c then v == Some(InvalidDestination)
      else v == None
  {
    InternalChecksOnPair(b, uid, q, d, c);
    VerdictAfterThree(InternalChecks(b, uid, q));
  }

  /** The verdict of the internal checks when the user lacks the deposit/current pair. */
  lemma InternalVerdictWithoutPair(b: Bank, uid: UserId, q: InternalRequest)
    requires InternalFieldsFilled(q) && |UserAccounts(b, uid)| == 2
    requires FindByType(b, UserAccounts(b, uid), DepositAccount).None? ||
             FindByType(b, UserAccounts(b, uid), CurrentAccount).None?
    ensures Verdict(InternalChecks(b, uid, q)) == Some(DepositOrCurrentNotFound)
  {
    VerdictAt(InternalChecks(b, uid, q), 2);
  }

  /**
   * An internal transfer reports exactly the earliest failing check, and
   * succeeds exactly when every check passes.
   */
  lemma InternalTransferFollowsCheckOrder(b: Bank, uid: UserId, q: InternalRequest, id: string, now: Millis)
    ensures Verdict(InternalChecks(b, uid, q)).Some? ==>
      InternalTransfer(b, uid, q, id, now) == Failure(Verdict(InternalChecks(b, uid, q)).value)
    ensures Verdict(InternalChecks(b, uid, q)).None? <==> InternalTransfer(b, uid, q, id, now).Success?
  {
    var cs := InternalChecks(b, uid, q);
    var owned := UserAccounts(b, uid);
    if !InternalFieldsFilled(q) {
      VerdictAt(cs, 0);
    } else if |owned| != 2 {
      VerdictAt(cs, 1);
    } else {
      var dep := FindByType(b, owned, DepositAccount);
      var cur := FindByType(b, owned, CurrentAccount);
      if dep.None? || cur.None? {
        InternalVerdictWithoutPair(b, uid, q);
      } else {
        InternalTransferOnPair(b, uid, q, id, now, dep.value, cur.value);
        InternalVerdictOnPair(b, uid, q, dep.value, cur.value);
      }
    }
  }

  // ---------------------------------------------------------------------------
  // Effects of a successful transfer on the whole state

  /** Moving money between two listed accounts leaves the bank's total unchanged. */
  lemma MovedConservesTotal(b: Bank, b': Bank, from: AccountNumber, to: AccountNumber, amount: int)
    requires Valid(b) && Moved(b, b', from, to, amount)
    ensures Total(b') == Total(b)
  {
    var debited := b.accounts[from].(balance := b.accounts[from].balance - amount);
    var credited := b.accounts[to].(balance := b.accounts[to].balance + amount);
    var step := b.accounts[from := debited];
    assert b'.accounts == step[to := credited];
    SumOverUpdate(b.accountOrder, b.accounts, from, debited);
    SumOverUpdate(b.accountOrder, step, to, credited);
  }

  /** A moved state with a fresh transaction identifier appended keeps the invariant. */
  lemma MovedPreservesValid(b: Bank, b': Bank, from: AccountNumber, to: AccountNumber, amount: int, t: Transaction)
    requires Valid(b) && Moved(b, b', from, to, amount)
    requires FreshId(b.log, t.id) && t.from == from && t.to == to && b'.log == b.log + [t]
    ensures Valid(b')
  {
    assert forall n :: n in b'.accounts ==> b'.accounts[n].owner == b.accounts[n].owner;
    forall i, j | 0 <= i < j < |b'.log|
      ensures b'.log[i].id != b'.log[j].id
    {
      if j == |b.log| {
        assert b'.log[i] in b.log;
      }
    }
  }

  /** A successful PIN transfer conserves the bank's total balance. */
  lemma PinTransferConservesTotal(b: Bank, uid: UserId, q: PinRequest, id: string, now: Millis)
    requires Valid(b) && PinTransfer(b, uid, q, id, now).Success?
    ensures Total(PinTransfer(b, uid, q, id, now).value) == Total(b)
  {
    MovedConservesTotal(b, PinTransfer(b, uid, q, id, now).value, q.from.value, q.to.value, q.amount.value);
  }

  /** A successful internal transfer conserves the bank's total balance. */
  lemma InternalTransferConservesTotal(b: Bank, uid: UserId, q: InternalRequest, id: string, now: Millis)
    requires Valid(b)
    ensures InternalTransfer(b, uid, q, id, now).Success? ==> Total(InternalTransfer(b, uid, q, id, now).value) == Total(b)
  {
    if InternalTransfer(b, uid, q, id, now).Success? {
      MovedConservesTotal(b, InternalTransfer(b, uid, q, id, now).value, q.from.value, q.to.value, q.amount.value);
    }
  }

  /** With a fresh identifier, a PIN transfer keeps the state invariant. */
  lemma PinTransferPreservesValid(b: Bank, uid: UserId, q: PinRequest, id: string, now: Millis)
    requires Valid(b) && FreshId(b.log, id) && PinTransfer(b, uid, q, id, now).Success?
    ensures Valid(PinTransfer(b, uid, q, id, now).value)
  {
    var t := Transaction(id, q.from.value, q.to.value, q.amount.value, q.transactionType, now);
    MovedPreservesValid(b, PinTransfer(b, uid, q, id, now).value, q.from.value, q.to.value, q.amount.value, t);
  }

  /** With a fresh identifier, an internal transfer keeps the state invariant. */
  lemma InternalTransferPreservesValid(b: Bank, uid: UserId, q: InternalRequest, id: string, now: Millis)
    requires Valid(b) && FreshId(b.log, id)
    ensures InternalTransfer(b, uid, q, id, now).Success? ==> Valid(InternalTransfer(b, uid, q, id, now).value)
  {
    if InternalTransfer(b, uid, q, id, now).Success? {
      var t := Transaction(id, q.from.value, q.to.value, q.amount.value, Some(TransferType), now);
      MovedPreservesValid(b, InternalTransfer(b, uid, q, id, now).value, q.from.value, q.to.value, q.amount.value, t);
    }
  }

  // ---------------------------------------------------------------------------
  // Read side

  /** The transaction has the account as sender or receiver. */
  predicate Involves(t: Transaction, n: AccountNumber) {
    t.from == n || t.to == n
  }

  /** `Transaction.find({ $or: [{ accountFrom: n }, { accountTo: n }] })`, in storage order. */
  function Involving(log: seq<Transaction>, n: AccountNumber): (r: seq<Transaction>)
    ensures forall t :: t in r <==> t in log && Involves(t, n)
  {
    Filter(log, t => Involves(t, n))
  }

  /** The involving transactions keep the log's storage order: oldest first. */
  lemma InvolvingOrdered(log: seq<Transaction>, n: AccountNumber)
    ensures var r := Involving(log, n);
      forall i, j :: 0 <= i < j < |r| ==> Precedes(log, r[i], r[j])
  {
    FilterOrdered(log, t => Involves(t, n));
  }

  /** `slice(-k).reverse()`: the last `k` elements (all of them when fewer), newest first. */
  function NewestFirst<T>(s: seq<T>, k: nat): (r: seq<T>)
    ensures |r| == Min(k, |s|)
    ensures forall i :: 0 <= i < |r| ==> r[i] == s[|s| - 1 - i]
  {
    Reverse(s[|s| - Min(k, |s|)..])
  }

  /** `getRecentTransactions`: the three newest transactions touching the user's first account. */
  function Recent(b: Bank, uid: UserId): (r: Result<seq<Transaction>, Error>)
    ensures r.Failure? <==> PrimaryAccount(b, uid).None?
    ensures r.Failure? ==> r.error == UserAccountNotFound
    ensures r.Success? ==>
      var m := Involving(b.log, PrimaryAccount(b, uid).value);
      |r.value| == Min(3, |m|) && forall i :: 0 <= i < |r.value| ==> r.value[i] == m[|m| - 1 - i]
  {
    match PrimaryAccount(b, uid)
    case None => Failure(UserAccountNotFound)
    case Some(n) => Success(NewestFirst(Involving(b.log, n), 3))
  }

  /** A PIN transfer leaves every user's account list untouched. */
  lemma MovedKeepsUserAccounts(b: Bank, b': Bank, from: AccountNumber, to: AccountNumber, amount: int, uid: UserId)
    requires Moved(b, b', from, to, amount)
    ensures UserAccounts(b', uid) == UserAccounts(b, uid)
  {
    FilterCongruent(b.accountOrder,
      n => n in b'.accounts && b'.accounts[n].owner == uid,
      n => n in b.accounts && b.accounts[n].owner == uid);
  }

  /** Appending one element puts it at the head of the newest-first view. */
  lemma NewestFirstAppend<T>(s: seq<T>, x: T, k: nat)
    ensures NewestFirst(s + [x], k + 1) == [x] + NewestFirst(s, k)
  {
    var l, r := NewestFirst(s + [x], k + 1), [x] + NewestFirst(s, k);
    assert |l| == |r|;
    forall i | 0 <= i < |l|
      ensures l[i] == r[i]
    {
      if i > 0 {
        assert l[i] == (s + [x])[|s| - i];
      }
    }
  }

  /** The newest-first view only holds elements of the list. */
  lemma NewestFirstWithin<T>(s: seq<T>, k: nat)
    ensures forall x :: x in NewestFirst(s, k) ==> x in s
  {
    var r := NewestFirst(s, k);
    forall x | x in r
      ensures x in s
    {
      var i :| 0 <= i < |r| && r[i] == x;
      assert r[i] == s[|s| - 1 - i];
    }
  }

  /** The newest-first view of fewer elements is a prefix of a longer one. */
  lemma NewestFirstPrefix<T>(s: seq<T>, k: nat, j: nat)
    requires j <= k
    ensures NewestFirst(s, k)[..Min(j, |NewestFirst(s, k)|)] == NewestFirst(s, j)
  {
  }

  /**
   * Moving money with `t` appended to the log: every user whose first account
   * `t` involves sees `t` at the head of their recent list, followed by what
   * were the two newest before.
   */
  lemma RecentAfterMove(b: Bank, b': Bank, from: AccountNumber, to: AccountNumber, amount: int, t: Transaction, viewer: UserId)
    requires Moved(b, b', from, to, amount) && b'.log == b.log + [t]
    requires PrimaryAccount(b, viewer).Some? && Involves(t, PrimaryAccount(b, viewer).value)
    ensures Recent(b, viewer).Success? && Recent(b', viewer).Success?
    ensures Recent(b', viewer).value == [t] + Recent(b, viewer).value[..Min(2, |Recent(b, viewer).value|)]
  {
    MovedKeepsUserAccounts(b, b', from, to, amount, viewer);
    var n := PrimaryAccount(b, viewer).value;
    assert PrimaryAccount(b', viewer) == Some(n);
    var m := Involving(b.log, n);
    FilterAppend(b.log, [t], t => Involves(t, n));
    assert Involving(b'.log, n) == m + [t];
    NewestFirstAppend(m, t, 2);
    NewestFirstPrefix(m, 3, 2);
  }

  /**
   * After a successful PIN transfer out of or into a user's first account,
   * that user's recent list starts with the new transaction, followed by the
   * previously newest ones.
   */
  lemma RecentAfterPinTransfer(b: Bank, uid: UserId, q: PinRequest, id: string, now: Millis, viewer: UserId)
    requires PinTransfer(b, uid, q, id, now).Success?
    requires PrimaryAccount(b, viewer) == q.from || PrimaryAccount(b, viewer) == q.to
    ensures Recent(b, viewer).Success? && Recent(PinTransfer(b, uid, q, id, now).value, viewer).Success?
    ensures Recent(PinTransfer(b, uid, q, id, now).value, viewer).value ==
      [Transaction(id, q.from.value, q.to.value, q.amount.value, q.transactionType, now)]
      + Recent(b, viewer).value[..Min(2, |Recent(b, viewer).value|)]
  {
    var t := Transaction(id, q.from.value, q.to.value, q.amount.value, q.transactionType, now);
    RecentAfterMove(b, PinTransfer(b, uid, q, id, now).value, q.from.value, q.to.value, q.amount.value, t, viewer);
  }

  /** The query string of `GET /transactions/all`. */
  datatype HistoryQuery = HistoryQuery(filterType: Option<string>, filterTime: Option<string>, filterTransactionType: Option<string>)

  /**
   * The look-back of the 'time' filter: a day or a week. Any other value
   * indexes nothing in the options table and makes the cutoff date invalid.
   */
  function TimeWindow(filterTime: Option<string>): Option<int> {
    if filterTime == Some("day") then Some(OneDay)
    else if filterTime == Some("week") then Some(OneWeek)
    else None
  }

  /** The secondary filter is active on time. */
  predicate TimeFiltered(q: HistoryQuery) {
    q.filterType == Some("time") && q.filterTime != Some("all")
  }

  /** The secondary filter is active on transaction type. */
  predicate TypeFiltered(q: HistoryQuery) {
    !TimeFiltered(q) && q.filterType == Some("type") && q.filterTransactionType != Some("all")
  }

  /** The transactions of the last 30 days that involve account `n`, in storage order. */
  function Window(log: seq<Transaction>, n: AccountNumber, now: Millis): (r: seq<Transaction>)
    ensures forall t :: t in r <==> t in log && Involves(t, n) && t.date >= now - ThirtyDays
    ensures forall i, j :: 0 <= i < j < |r| ==> Precedes(log, r[i], r[j])
  {
    var recent := t => Involves(t, n) && t.date >= now - ThirtyDays;
    FilterOrdered(log, recent);
    Filter(log, recent)
  }

  /**
   * The selection of `getAllTransactions` (before names and dates are
   * formatted): the user's first account's transactions of the last 30 days,
   * narrowed by the optional time or type filter. The handler reads the
   * clock twice, for the 30-day window and for the time filter; both
   * readings are `now` here.
   */
  function History(b: Bank, uid: UserId, q: HistoryQuery, now: Millis): (r: Result<seq<Transaction>, Error>)
    ensures r.Failure? <==> PrimaryAccount(b, uid).None?
    ensures r.Failure? ==> r.error == UserAccountNotFound
    ensures r.Success? ==> forall t :: t in r.value ==>
      t in b.log && Involves(t, PrimaryAccount(b, uid).value) && t.date >= now - ThirtyDays
    ensures r.Success? ==> |r.value| <= |Window(b.log, PrimaryAccount(b, uid).value, now)|
  {
    match PrimaryAccount(b, uid)
    case None => Failure(UserAccountNotFound)
    case Some(n) =>
      var window := Window(b.log, n, now);
      if TimeFiltered(q) then
        match TimeWindow(q.filterTime)
        case Some(w) => Success(Filter(window, (t: Transaction) => t.date >= now - w))
        // `new Date(NaN)`: every comparison with it is false, so nothing passes.
        case None => Success([])
      else if TypeFiltered(q) then
        Success(Filter(window, (t: Transaction) => t.transactionType == q.filterTransactionType))
      else Success(window)
  }

  /**
   * With the type filter on, history keeps exactly the window's transactions
   * of that type, in the window's order.
   */
  lemma HistoryTypeFilter(b: Bank, uid: UserId, q: HistoryQuery, now: Millis)
    requires PrimaryAccount(b, uid).Some? && TypeFiltered(q)
    ensures var n := PrimaryAccount(b, uid).value;
      forall t :: t in History(b, uid, q, now).value <==>
        t in Window(b.log, n, now) && t.transactionType == q.filterTransactionType
    ensures var n := PrimaryAccount(b, uid).value; var r := History(b, uid, q, now).value;
      forall i, j :: 0 <= i < j < |r| ==> Precedes(Window(b.log, n, now), r[i], r[j])
  {
    var window := Window(b.log, PrimaryAccount(b, uid).value, now);
    FilterOrdered(window, (t: Transaction) => t.transactionType == q.filterTransactionType);
  }

  /** Without an active secondary filter, history is the whole 30-day window, in order. */
  lemma HistoryUnfiltered(b: Bank, uid: UserId, q: HistoryQuery, now: Millis)
    requires PrimaryAccount(b, uid).Some? && !TimeFiltered(q) && !TypeFiltered(q)
    ensures History(b, uid, q, now) == Success(Window(b.log, PrimaryAccount(b, uid).value, now))
  {
  }

  /** A 'time' filter with a value other than 'all', 'day' or 'week' empties the history. */
  lemma HistoryUnknownTimeIsEmpty(b: Bank, uid: UserId, q: HistoryQuery, now: Millis)
    requires PrimaryAccount(b, uid).Some? && TimeFiltered(q)
    requires q.filterTime != Some("day") && q.filterTime != Some("week")
    ensures History(b, uid, q, now) == Success([])
  {
  }

  /**
   * The name lookups after the selection read the owner of both accounts a
   * record names and throw when either is missing. In a valid state every
   * selected record names stored accounts, so that never happens.
   */
  lemma RecentRecordsResolve(b: Bank, uid: UserId)
    requires Valid(b)
    ensures Recent(b, uid).Success? ==>
      forall t :: t in Recent(b, uid).value ==> t.from in b.accounts && t.to in b.accounts
  {
    if Recent(b, uid).Success? {
      NewestFirstWithin(Involving(b.log, PrimaryAccount(b, uid).value), 3);
    }
  }

  lemma HistoryRecordsResolve(b: Bank, uid: UserId, q: HistoryQuery, now: Millis)
    requires Valid(b)
    ensures History(b, uid, q, now).Success? ==>
      forall t :: t in History(b, uid, q, now).value ==> t.from in b.accounts && t.to in b.accounts
  {
  }

  /** One row of `GET /balance`. */
  datatype BalanceEntry = BalanceEntry(accountNumber: AccountNumber, balance: int, accountType: Option<string>)

  /** `getUserBalance`: number, balance and type of each of the user's accounts, in storage order. */
  function Balances(b: Bank, uid: UserId): (r: seq<BalanceEntry>)
    ensures |r| == |UserAccounts(b, uid)|
    ensures forall i :: 0 <= i < |r| ==> r[i].accountNumber == UserAccounts(b, uid)[i]
    ensures forall i :: 0 <= i < |r| ==> (r[i].accountNumber in b.accounts &&
      r[i].balance == b.accounts[r[i].accountNumber].balance &&
      r[i].accountType == b.accounts[r[i].accountNumber].accountType)
  {
    var owned := UserAccounts(b, uid);
    seq(|owned|, i requires 0 <= i < |owned| =>
      BalanceEntry(owned[i], b.accounts[owned[i]].balance, b.accounts[owned[i]].accountType))
  }

  /** In a valid state the balance listing names every account the user owns, and only those, once each. */
  lemma BalancesListOwnedAccounts(b: Bank, uid: UserId)
    requires Valid(b)
    ensures forall n :: n in b.accounts && b.accounts[n].owner == uid <==>
      exists i :: 0 <= i < |Balances(b, uid)| && Balances(b, uid)[i].accountNumber == n
    ensures forall i, j :: 0 <= i < j < |Balances(b, uid)| ==>
      Balances(b, uid)[i].accountNumber != Balances(b, uid)[j].accountNumber
  {
    var r := Balances(b, uid);
    var owned := UserAccounts(b, uid);
    forall n | n in b.accounts && b.accounts[n].owner == uid
      ensures exists i :: 0 <= i < |r| && r[i].accountNumber == n
    {
      assert n in owned;
      var i :| 0 <= i < |owned| && owned[i] == n;
      assert r[i].accountNumber == n;
    }
    FilterKeepsDistinct(b.accountOrder, n => n in b.accounts && b.accounts[n].owner == uid);
  }
}

=== FILE: model.dfy ===
/**
 * The five document collections of the bank (users, accounts, transactions,
 * credit cards, user-card-account relations) as one immutable state value,
 * with the key and uniqueness constraints their schemas declare.
 */
module Model {
  import opened Wrappers
  import opened Seqs

  type UserId = string
  type AccountNumber = string
  type CardNumber = string

  /** A point in time in milliseconds since the epoch, as `Date.now()` reports it. */
  type Millis = int

  const CurrentAccount: string := "Current Account"
  const DepositAccount: string := "Deposit Account"

  /** A user document; the password is kept only as the hash an external library produced. */
  datatype User = User(email: string, passwordHash: string, firstName: string, lastName: string, pin: string)

  /** An account document, keyed by its number in `Bank.accounts`; balances are whole numbers. */
  datatype Account = Account(owner: UserId, balance: int, accountType: Option<string>)

  /** A transaction document: immutable once appended to the log. */
  datatype Transaction = Transaction(
    id: string,
    from: AccountNumber,
    to: AccountNumber,
    amount: int,
    transactionType: Option<string>,
    date: Millis)

  /** A credit-card document, keyed by its number in `Bank.cards`; an absent limit means no limit. */
  datatype CreditCard = CreditCard(owner: UserId, limit: Option<int>, expiry: Option<Millis>)

  /** Links a card to the account whose transfers its limit guards. */
  datatype Relation = Relation(user: UserId, card: CardNumber, account: AccountNumber)

  /**
   * The whole store. Unique keys become map keys; `accountOrder` is the natural
   * (insertion) order of the account collection, which the `find`/`findOne`
   * queries by owner observe; relations and transactions keep insertion order.
   */
  datatype Bank = Bank(
    users: map<UserId, User>,
    accounts: map<AccountNumber, Account>,
    accountOrder: seq<AccountNumber>,
    cards: map<CardNumber, CreditCard>,
    relations: seq<Relation>,
    log: seq<Transaction>)

  /** No transaction in `log` carries the identifier `id`. */
  predicate FreshId(log: seq<Transaction>, id: string) {
    forall t :: t in log ==> t.id != id
  }

  /** Transaction identifiers are unique. */
  predicate UniqueIds(log: seq<Transaction>) {
    forall i, j :: 0 <= i < j < |log| ==> log[i].id != log[j].id
  }

  /** Emails and PINs are unique across users. */
  predicate UniqueCredentials(users: map<UserId, User>) {
    forall u, v :: u in users && v in users && u != v ==>
      users[u].email != users[v].email && users[u].pin != users[v].pin
  }

  /**
   * The state invariant: the schemas' uniqueness constraints, the account
   * order listing every account once, and every reference the handlers
   * create resolving: account owners, the account and card of each relation,
   * and the two accounts each transaction names.
   */
  ghost predicate Valid(b: Bank) {
    && NoDuplicates(b.accountOrder)
    && (forall n :: n in b.accountOrder <==> n in b.accounts)
    && (forall n :: n in b.accounts ==> b.accounts[n].owner in b.users)
    && (forall r :: r in b.relations ==> r.account in b.accounts && r.card in b.cards)
    && (forall t :: t in b.log ==> t.from in b.accounts && t.to in b.accounts)
    && UniqueIds(b.log)
    && UniqueCredentials(b.users)
  }

  /** `Account.find({ userID })`: the user's account numbers in storage order. */
  function UserAccounts(b: Bank, uid: UserId): (r: seq<AccountNumber>)
    ensures forall n :: n in r <==> n in b.accountOrder && n in b.accounts && b.accounts[n].owner == uid
    ensures forall i, j :: 0 <= i < j < |r| ==> Precedes(b.accountOrder, r[i], r[j])
  {
    var owns := n => n in b.accounts && b.accounts[n].owner == uid;
    FilterOrdered(b.accountOrder, owns);
    Filter(b.accountOrder, owns)
  }

  /** `Account.findOne({ userID })`: the user's first account in storage order. */
  function PrimaryAccount(b: Bank, uid: UserId): (r: Option<AccountNumber>)
    ensures r.None? <==> forall n :: n in b.accountOrder && n in b.accounts ==> b.accounts[n].owner != uid
    ensures r.Some? ==> r.value in b.accounts && b.accounts[r.value].owner == uid
    ensures r.Some? ==> exists i :: (0 <= i < |b.accountOrder| && b.accountOrder[i] == r.value &&
      forall j :: 0 <= j < i ==> !(b.accountOrder[j] in b.accounts && b.accounts[b.accountOrder[j]].owner == uid))
  {
    var owned := UserAccounts(b, uid);
    if owned == [] then None
    else
      FilterFirst(b.accountOrder, n => n in b.accounts && b.accounts[n].owner == uid);
      Some(owned[0])
  }

  /** `UserCreditCardRelation.findOne({ accountNumber })`: the first relation for the account. */
  function FirstRelation(rels: seq<Relation>, n: AccountNumber): (r: Option<Relation>)
    ensures r.None? <==> forall x :: x in rels ==> x.account != n
    ensures r.Some? ==> r.value in rels && r.value.account == n
    ensures r.Some? ==> exists i :: (0 <= i < |rels| && rels[i] == r.value &&
      forall j :: 0 <= j < i ==> rels[j].account != n)
  {
    if rels == [] then None
    else if rels[0].account == n then Some(rels[0])
    else FirstRelation(rels[1..], n)
  }

  /** The sum of the balances of the accounts listed in `order`. */
  function SumOver(order: seq<AccountNumber>, accounts: map<AccountNumber, Account>): int {
    if order == [] then 0
    else (if order[0] in accounts then accounts[order[0]].balance else 0) + SumOver(order[1..], accounts)
  }

  /** All money held in the bank. */
  function Total(b: Bank): int {
    SumOver(b.accountOrder, b.accounts)
  }

  /** Replacing an account not listed in `order` leaves the sum alone. */
  lemma {:induction false} SumOverUnlisted(order: seq<AccountNumber>, accounts: map<AccountNumber, Account>, k: AccountNumber, a: Account)
    requires k !in order
    ensures SumOver(order, accounts[k := a]) == SumOver(order, accounts)
  {
    if order != [] {
      SumOverUnlisted(order[1..], accounts, k, a);
    }
  }

  /** Replacing an account listed exactly once shifts the sum by the change in its balance. */
  lemma {:induction false} SumOverUpdate(order: seq<AccountNumber>, accounts: map<AccountNumber, Account>, k: AccountNumber, a: Account)
    requires NoDuplicates(order) && k in order && k in accounts
    ensures SumOver(order, accounts[k := a]) == SumOver(order, accounts) - accounts[k].balance + a.balance
  {
    if order[0] == k {
      assert k !in order[1..] by {
        forall i | 0 <= i < |order[1..]|
          ensures order[1..][i] != k
        {
          assert order[1..][i] == order[i + 1];
        }
      }
      SumOverUnlisted(order[1..], accounts, k, a);
    } else {
      SumOverUpdate(order[1..], accounts, k, a);
    }
  }
}

=== FILE: onboarding.dfy ===
/**
 * What registration sets up, and why it is exactly what the transfer and
 * query handlers of the finance controller expect of a user.
 */
module Onboarding {
  import opened Wrappers
  import opened Errors
  import opened Seqs
  import opened Model
  import opened Finance
  import opened Accounts

  // ---------------------------------------------------------------------------
  // The inserted documents, for arbitrary fresh keys

  /** The keys and credentials registration inserts clash with nothing stored. */
  ghost predicate Fresh(b: Bank, uid: UserId, user: User, cur: AccountNumber, dep: AccountNumber, card: CardNumber) {
    && uid !in b.users && cur != dep
    && cur !in b.accounts && dep !in b.accounts && card !in b.cards
    && (forall u :: u in b.users ==> b.users[u].email != user.email && b.users[u].pin != user.pin)
  }

  lemma EnrolKeepsOrder(b: Bank, uid: UserId, user: User, cur: AccountNumber, dep: AccountNumber, card: CardNumber, expiry: Millis)
    requires Valid(b) && Fresh(b, uid, user, cur, dep, card)
    ensures var b' := Enrol(b, uid, user, cur, dep, card, expiry);
      NoDuplicates(b'.accountOrder) && forall n :: n in b'.accountOrder <==> n in b'.accounts
  {
    var b' := Enrol(b, uid, user, cur, dep, card, expiry);
    assert cur !in b.accountOrder && dep !in b.accountOrder;
    assert forall i :: 0 <= i < |b.accountOrder| ==> b'.accountOrder[i] == b.accountOrder[i];
  }

  lemma EnrolKeepsReferences(b: Bank, uid: UserId, user: User, cur: AccountNumber, dep: AccountNumber, card: CardNumber, expiry: Millis)
    requires Valid(b) && Fresh(b, uid, user, cur, dep, card)
    ensures var b' := Enrol(b, uid, user, cur, dep, card, expiry);
      && (forall n :: n in b'.accounts ==> b'.accounts[n].owner in b'.users)
      && (forall r :: r in b'.relations ==> r.account in b'.accounts && r.card in b'.cards)
      && (forall t :: t in b'.log ==> t.from in b'.accounts && t.to in b'.accounts)
  {
  }

  lemma EnrolKeepsCredentials(b: Bank, uid: UserId, user: User, cur: AccountNumber, dep: AccountNumber, card: CardNumber, expiry: Millis)
    requires Valid(b) && Fresh(b, uid, user, cur, dep, card)
    ensures UniqueCredentials(Enrol(b, uid, user, cur, dep, card, expiry).users)
  {
  }

  /** Inserting fresh documents keeps the state invariant. */
  lemma EnrolPreservesValid(b: Bank, uid: UserId, user: User, cur: AccountNumber, dep: AccountNumber, card: CardNumber, expiry: Millis)
    requires Valid(b) && Fresh(b, uid, user, cur, dep, card)
    ensures Valid(Enrol(b, uid, user, cur, dep, card, expiry))
  {
    EnrolKeepsOrder(b, uid, user, cur, dep, card, expiry);
    EnrolKeepsReferences(b, uid, user, cur, dep, card, expiry);
    EnrolKeepsCredentials(b, uid, user, cur, dep, card, expiry);
  }

  /** Filtering a list no element of which passes, extended by two that do, keeps just those two. */
  lemma FilterFreshPair<T(!new)>(s: seq<T>, x: T, y: T, p: T -> bool)
    requires forall n :: n in s ==> !p(n)
    requires p(x) && p(y)
    ensures Filter(s + [x, y], p) == [x, y]
  {
    FilterAppend(s, [x, y], p);
    FilterEmpty(s, p);
    assert [x, y] == [x] + [y];
    FilterAppend([x], [y], p);
  }

  lemma EnrolledAccounts(b: Bank, uid: UserId, user: User, cur: AccountNumber, dep: AccountNumber, card: CardNumber, expiry: Millis)
    requires Valid(b) && Fresh(b, uid, user, cur, dep, card)
    ensures var b' := Enrol(b, uid, user, cur, dep, card, expiry);
      && UserAccounts(b', uid) == [cur, dep]
      && b'.accounts[cur] == Account(uid, 100, Some("Current Account"))
      && b'.accounts[dep] == Account(uid, 100, Some("Deposit Account"))
      && PrimaryAccount(b', uid) == Some(cur)
  {
    var b' := Enrol(b, uid, user, cur, dep, card, expiry);
    var p := n => n in b'.accounts && b'.accounts[n].owner == uid;
    forall n | n in b.accountOrder
      ensures !p(n)
    {
      assert n in b.accounts && n != cur && n != dep;
      assert b.accounts[n].owner in b.users;
    }
    FilterFreshPair(b.accountOrder, cur, dep, p);
  }

  lemma EnrolledCard(b: Bank, uid: UserId, user: User, cur: AccountNumber, dep: AccountNumber, card: CardNumber, expiry: Millis)
    requires Valid(b) && Fresh(b, uid, user, cur, dep, card)
    ensures var b' := Enrol(b, uid, user, cur, dep, card, expiry);
      && FirstRelation(b'.relations, cur) == Some(Relation(uid, card, cur))
      && card in b'.cards && b'.cards[card].limit == Some(1000)
  {
    var b' := Enrol(b, uid, user, cur, dep, card, expiry);
    assert Relation(uid, card, cur) in b'.relations;
  }

  /** The only relation inserted names the current account, so none names the deposit account. */
  lemma EnrolledDepositUncarded(b: Bank, uid: UserId, user: User, cur: AccountNumber, dep: AccountNumber, card: CardNumber, expiry: Millis)
    requires Valid(b) && Fresh(b, uid, user, cur, dep, card)
    ensures forall x :: x in Enrol(b, uid, user, cur, dep, card, expiry).relations ==> x.account != dep
  {
    forall x | x in Enrol(b, uid, user, cur, dep, card, expiry).relations
      ensures x.account != dep
    {
      if x in b.relations {
        assert x.account in b.accounts;
      }
    }
  }

  lemma EnrolledHasNoHistory(b: Bank, uid: UserId, user: User, cur: AccountNumber, dep: AccountNumber, card: CardNumber, expiry: Millis)
    requires Valid(b) && Fresh(b, uid, user, cur, dep, card)
    ensures Recent(Enrol(b, uid, user, cur, dep, card, expiry), uid) == Success([])
  {
    var b' := Enrol(b, uid, user, cur, dep, card, expiry);
    EnrolledAccounts(b, uid, user, cur, dep, card, expiry);
    assert b'.log == b.log;
    FilterEmpty(b.log, t => Involves(t, cur));
  }

  // ---------------------------------------------------------------------------
  // Registration

  /** A successful registration saves exactly the documents `Enrol` describes, under fresh keys. */
  lemma RegisterEnrols(b: Bank, q: RegistrationRequest, g: Draws)
    requires Valid(b) && DrawsInRange(g) && FreshNumbers(b, g)
    requires Register(b, q, g).Success?
    ensures var user := User(q.email.value, g.passwordHash, q.firstName.value, q.lastName.value, GeneratePin(g.pinDraw));
      && Register(b, q, g).value.bank == Enrol(b, g.userId, user, CurrentNumber(g), DepositNumber(g), NewCard(g), g.expiry)
      && Fresh(b, g.userId, user, CurrentNumber(g), DepositNumber(g), NewCard(g))
  {
  }

  /**
   * Registration only inserts, and only its five documents: one user, the
   * current and the deposit account (appended in that order), one card, and
   * one relation linking that card to the current account. Stored cards stay
   * as they were.
   */
  lemma RegisterKeepsExisting(b: Bank, q: RegistrationRequest, g: Draws)
    requires DrawsInRange(g) && FreshNumbers(b, g)
    ensures var r := Register(b, q, g);
      r.Success? ==> forall c :: c in b.cards ==> c in r.value.bank.cards && r.value.bank.cards[c] == b.cards[c]
    ensures var r := Register(b, q, g);
      r.Success? ==> b.accountOrder < r.value.bank.accountOrder && b.relations < r.value.bank.relations
    ensures var r := Register(b, q, g);
      r.Success? ==>
        && r.value.bank.accountOrder == b.accountOrder + [CurrentNumber(g), DepositNumber(g)]
        && r.value.bank.relations == b.relations + [Relation(g.userId, NewCard(g), CurrentNumber(g))]
    ensures var r := Register(b, q, g);
      r.Success? ==>
        && r.value.bank.users.Keys == b.users.Keys + {g.userId}
        && r.value.bank.accounts.Keys == b.accounts.Keys + {CurrentNumber(g), DepositNumber(g)}
        && r.value.bank.cards.Keys == b.cards.Keys + {NewCard(g)}
  {
  }

  /** Registration keeps the state invariant. */
  lemma RegisterPreservesValid(b: Bank, q: RegistrationRequest, g: Draws)
    requires Valid(b) && DrawsInRange(g) && FreshNumbers(b, g)
    requires Register(b, q, g).Success?
    ensures Valid(Register(b, q, g).value.bank)
  {
    RegisterEnrols(b, q, g);
    var user := User(q.email.value, g.passwordHash, q.firstName.value, q.lastName.value, GeneratePin(g.pinDraw));
    EnrolPreservesValid(b, g.userId, user, CurrentNumber(g), DepositNumber(g), NewCard(g), g.expiry);
  }

  /**
   * A newly registered user owns exactly two accounts, the current account
   * first and the deposit account second, each holding 100; the current
   * account is the one the history and recent queries look at.
   */
  lemma RegisteredUserAccounts(b: Bank, q: RegistrationRequest, g: Draws)
    requires Valid(b) && DrawsInRange(g) && FreshNumbers(b, g)
    requires Register(b, q, g).Success?
    ensures var b' := Register(b, q, g).value.bank;
      && UserAccounts(b', g.userId) == [CurrentNumber(g), DepositNumber(g)]
      && b'.accounts[CurrentNumber(g)] == Account(g.userId, 100, Some("Current Account"))
      && b'.accounts[DepositNumber(g)] == Account(g.userId, 100, Some("Deposit Account"))
      && PrimaryAccount(b', g.userId) == Some(CurrentNumber(g))
  {
    RegisterEnrols(b, q, g);
    var user := User(q.email.value, g.passwordHash, q.firstName.value, q.lastName.value, GeneratePin(g.pinDraw));
    EnrolledAccounts(b, g.userId, user, CurrentNumber(g), DepositNumber(g), NewCard(g), g.expiry);
  }

  /** Registration issues a card with limit 1000, and the current account's first relation names it. */
  lemma RegisteredCardGuardsCurrent(b: Bank, q: RegistrationRequest, g: Draws)
    requires Valid(b) && DrawsInRange(g) && FreshNumbers(b, g)
    requires Register(b, q, g).Success?
    ensures var b' := Register(b, q, g).value.bank;
      && FirstRelation(b'.relations, CurrentNumber(g)) == Some(Relation(g.userId, NewCard(g), CurrentNumber(g)))
      && NewCard(g) in b'.cards && b'.cards[NewCard(g)].limit == Some(1000)
  {
    RegisterEnrols(b, q, g);
    var user := User(q.email.value, g.passwordHash, q.firstName.value, q.lastName.value, GeneratePin(g.pinDraw));
    EnrolledCard(b, g.userId, user, CurrentNumber(g), DepositNumber(g), NewCard(g), g.expiry);
  }

  /** A new user's balance listing: the current account, then the deposit account, 100 each. */
  lemma RegisteredUserBalances(b: Bank, q: RegistrationRequest, g: Draws)
    requires Valid(b) && DrawsInRange(g) && FreshNumbers(b, g)
    requires Register(b, q, g).Success?
    ensures Balances(Register(b, q, g).value.bank, g.userId) ==
      [ BalanceEntry(CurrentNumber(g), 100, Some("Current Account")),
        BalanceEntry(DepositNumber(g), 100, Some("Deposit Account")) ]
  {
    RegisteredUserAccounts(b, q, g);
  }

  /** A new user has no transactions yet. */
  lemma RegisteredUserHasNoHistory(b: Bank, q: RegistrationRequest, g: Draws)
    requires Valid(b) && DrawsInRange(g) && FreshNumbers(b, g)
    requires Register(b, q, g).Success?
    ensures Recent(Register(b, q, g).value.bank, g.userId) == Success([])
  {
    RegisterEnrols(b, q, g);
    var user := User(q.email.value, g.passwordHash, q.firstName.value, q.lastName.value, GeneratePin(g.pinDraw));
    EnrolledHasNoHistory(b, g.userId, user, CurrentNumber(g), DepositNumber(g), NewCard(g), g.expiry);
  }

  // ---------------------------------------------------------------------------
  // What the transfers need of a user, for an arbitrary bank

  /**
   * A user owning exactly a current account and then a deposit account, each
   * holding at least `amount`, can move any non-zero `amount` between them.
   */
  lemma InternalTransferOnOwnPair(b: Bank, uid: UserId, cur: AccountNumber, dep: AccountNumber, amount: int, id: string, now: Millis)
    requires UserAccounts(b, uid) == [cur, dep] && cur != "" && dep != ""
    requires cur in b.accounts && b.accounts[cur].accountType == Some(CurrentAccount) && b.accounts[cur].balance >= amount
    requires dep in b.accounts && b.accounts[dep].accountType == Some(DepositAccount) && b.accounts[dep].balance >= amount
    requires amount != 0
    ensures InternalTransfer(b, uid, InternalRequest(Some(cur), Some(dep), Some(amount)), id, now).Success?
    ensures InternalTransfer(b, uid, InternalRequest(Some(dep), Some(cur), Some(amount)), id, now).Success?
  {
    var owned := UserAccounts(b, uid);
    assert CurrentAccount != DepositAccount;
    assert |owned| == 2;
    assert FindByType(b, owned, DepositAccount) == Some(dep) by {
      assert owned[1..] == [dep];
    }
    assert FindByType(b, owned, CurrentAccount) == Some(cur);
    assert cur != dep;
  }

  /**
   * A PIN transfer out of an account whose first relation names a stored
   * card with limit 1000 succeeds for the right PIN and any non-zero amount
   * the account covers and the limit allows.
   */
  lemma PinTransferOnCardedAccount(b: Bank, uid: UserId, from: AccountNumber, to: AccountNumber, rel: Relation,
                                   amount: int, transactionType: string, id: string, now: Millis)
    requires uid in b.users && b.users[uid].pin != "" && from in b.accounts && to in b.accounts && from != "" && to != "" && from != to
    requires FirstRelation(b.relations, from) == Some(rel) && rel.card in b.cards && b.cards[rel.card].limit == Some(1000)
    requires amount != 0 && amount <= 1000 && amount <= b.accounts[from].balance && transactionType != ""
    ensures PinTransfer(b, uid, PinRequest(Some(from), Some(to), Some(amount), Some(b.users[uid].pin), Some(transactionType)), id, now).Success?
  {
    var q := PinRequest(Some(from), Some(to), Some(amount), Some(b.users[uid].pin), Some(transactionType));
    assert PinFieldsFilled(q) && q.from != q.to;
    assert !OverLimit(b.cards[rel.card].limit, amount);
  }

  /**
   * Registration produces exactly the shape the internal transfer requires:
   * a transfer of any non-zero amount up to 100 between the two new
   * accounts, in either direction, succeeds.
   */
  lemma RegistrationEnablesInternalTransfer(b: Bank, q: RegistrationRequest, g: Draws, amount: int, id: string, now: Millis)
    requires Valid(b) && DrawsInRange(g) && FreshNumbers(b, g)
    requires Register(b, q, g).Success?
    requires amount != 0 && amount <= 100
    ensures var b', cur, dep := Register(b, q, g).value.bank, CurrentNumber(g), DepositNumber(g);
      && InternalTransfer(b', g.userId, InternalRequest(Some(cur), Some(dep), Some(amount)), id, now).Success?
      && InternalTransfer(b', g.userId, InternalRequest(Some(dep), Some(cur), Some(amount)), id, now).Success?
  {
    RegisteredUserAccounts(b, q, g);
    assert CurrentNumber(g) != "" && DepositNumber(g) != "";
    InternalTransferOnOwnPair(Register(b, q, g).value.bank, g.userId, CurrentNumber(g), DepositNumber(g), amount, id, now);
  }

  /**
   * A new user's PIN transfer out of the current account passes the relation
   * and card lookups: with the issued PIN, any non-zero amount up to 100 to
   * any other existing account succeeds.
   */
  lemma RegistrationEnablesPinTransfer(b: Bank, q: RegistrationRequest, g: Draws, to: AccountNumber,
                                       amount: int, transactionType: string, id: string, now: Millis)
    requires Valid(b) && DrawsInRange(g) && FreshNumbers(b, g)
    requires Register(b, q, g).Success?
    requires to in Register(b, q, g).value.bank.accounts && to != "" && to != CurrentNumber(g)
    requires amount != 0 && amount <= 100 && transactionType != ""
    ensures var r := Register(b, q, g).value;
      PinTransfer(r.bank, g.userId,
        PinRequest(Some(CurrentNumber(g)), Some(to), Some(amount), Some(r.pin), Some(transactionType)), id, now).Success?
  {
    var r := Register(b, q, g).value;
    RegisteredUserAccounts(b, q, g);
    RegisteredCardGuardsCurrent(b, q, g);
    assert g.userId in r.bank.users && r.bank.users[g.userId].pin == r.pin;
    assert CurrentNumber(g) != "" && |r.pin| == 4;
    PinTransferOnCardedAccount(r.bank, g.userId, CurrentNumber(g), to, Relation(g.userId, NewCard(g), CurrentNumber(g)),
                               amount, transactionType, id, now);
  }

  /**
   * Only the current account is linked to the new card, so a new user's PIN
   * transfer out of the deposit account passes every earlier check and then
   * finds no relation: the null dereference answers 500.
   */
  lemma RegisteredDepositHasNoCard(b: Bank, q: RegistrationRequest, g: Draws, to: AccountNumber,
                                   amount: int, transactionType: string, id: string, now: Millis)
    requires Valid(b) && DrawsInRange(g) && FreshNumbers(b, g)
    requires Register(b, q, g).Success?
    requires to in Register(b, q, g).value.bank.accounts && to != "" && to != DepositNumber(g)
    requires amount != 0 && amount <= 100 && transactionType != ""
    ensures var r := Register(b, q, g).value;
      PinTransfer(r.bank, g.userId,
        PinRequest(Some(DepositNumber(g)), Some(to), Some(amount), Some(r.pin), Some(transactionType)), id, now)
      == Failure(InternalError)
  {
    var r := Register(b, q, g).value;
    var dep := DepositNumber(g);
    RegisterEnrols(b, q, g);
    var user := User(q.email.value, g.passwordHash, q.firstName.value, q.lastName.value, GeneratePin(g.pinDraw));
    EnrolledDepositUncarded(b, g.userId, user, CurrentNumber(g), dep, NewCard(g), g.expiry);
    RegisteredUserAccounts(b, q, g);
    assert g.userId in r.bank.users && r.bank.users[g.userId].pin == r.pin;
    assert dep != "" && |r.pin| == 4;
    PinTransferOnUncardedAccount(r.bank, g.userId, dep, to, amount, transactionType, id, now);
  }

  /** A PIN transfer whose source has no relation, once every earlier check passes, answers 500. */
  lemma PinTransferOnUncardedAccount(b: Bank, uid: UserId, from: AccountNumber, to: AccountNumber,
                                     amount: int, transactionType: string, id: string, now: Millis)
    requires uid in b.users && b.users[uid].pin != "" && from in b.accounts && to in b.accounts && from != "" && to != "" && from != to
    requires forall x :: x in b.relations ==> x.account != from
    requires amount != 0 && amount <= b.accounts[from].balance && transactionType != ""
    ensures PinTransfer(b, uid, PinRequest(Some(from), Some(to), Some(amount), Some(b.users[uid].pin), Some(transactionType)), id, now)
      == Failure(InternalError)
  {
    var q := PinRequest(Some(from), Some(to), Some(amount), Some(b.users[uid].pin), Some(transactionType));
    assert PinFieldsFilled(q) && q.from != q.to;
  }
}

=== FILE: seqs.dfy ===
/** Sequence helpers: order-preserving filter, reversal, distinctness. */
module Seqs {

  /** The elements of `s` satisfying `p`, in their original order. */
  function Filter<T(==,!new)>(s: seq<T>, p: T -> bool): (r: seq<T>)
    ensures |r| <= |s|
    ensures forall x :: x in r <==> x in s && p(x)
  {
    if s == [] then []
    else (if p(s[0]) then [s[0]] else []) + Filter(s[1..], p)
  }

  /** Filtering distributes over concatenation. */
  lemma {:induction false} FilterAppend<T(!new)>(a: seq<T>, b: seq<T>, p: T -> bool)
    ensures Filter(a + b, p) == Filter(a, p) + Filter(b, p)
  {
    if a == [] {
      assert a + b == b;
    } else {
      assert (a + b)[1..] == a[1..] + b;
      FilterAppend(a[1..], b, p);
    }
  }

  /** Two predicates that agree on the elements of `s` select the same subsequence. */
  lemma {:induction false} FilterCongruent<T(!new)>(s: seq<T>, p: T -> bool, q: T -> bool)
    requires forall x :: x in s ==> p(x) == q(x)
    ensures Filter(s, p) == Filter(s, q)
  {
    if s != [] {
      assert forall x :: x in s[1..] ==> x in s;
      FilterCongruent(s[1..], p, q);
    }
  }

  /** `s` back to front. */
  function Reverse<T>(s: seq<T>): (r: seq<T>)
    ensures |r| == |s|
    ensures forall i :: 0 <= i < |s| ==> r[i] == s[|s| - 1 - i]
  {
    if s == [] then [] else Reverse(s[1..]) + [s[0]]
  }

  predicate NoDuplicates<T(==,!new)>(s: seq<T>) {
    forall i, j :: 0 <= i < j < |s| ==> s[i] != s[j]
  }

  /** Some occurrence of `x` in `s` comes before some occurrence of `y`. */
  predicate Precedes<T(==)>(s: seq<T>, x: T, y: T) {
    exists a, c :: 0 <= a < c < |s| && s[a] == x && s[c] == y
  }

  function Min(a: int, b: int): int {
    if a <= b then a else b
  }

  /** Filtering a sequence without duplicates yields one without duplicates. */
  lemma {:induction false} FilterKeepsDistinct<T(!new)>(s: seq<T>, p: T -> bool)
    requires NoDuplicates(s)
    ensures NoDuplicates(Filter(s, p))
  {
    if s != [] {
      FilterKeepsDistinct(s[1..], p);
      assert s[0] !in s[1..] by {
        forall i | 0 <= i < |s[1..]|
          ensures s[1..][i] != s[0]
        {
          assert s[1..][i] == s[i + 1];
        }
      }
    }
  }

  /** Nothing is selected when no element satisfies the predicate. */
  lemma {:induction false} FilterEmpty<T(!new)>(s: seq<T>, p: T -> bool)
    requires forall x :: x in s ==> !p(x)
    ensures Filter(s, p) == []
  {
    if s != [] {
      assert forall x :: x in s[1..] ==> x in s;
      FilterEmpty(s[1..], p);
    }
  }

  /** The first selected element is the earliest element of `s` satisfying `p`. */
  lemma {:induction false} FilterFirst<T(!new)>(s: seq<T>, p: T -> bool)
    requires Filter(s, p) != []
    ensures exists i :: 0 <= i < |s| && s[i] == Filter(s, p)[0] && forall j :: 0 <= j < i ==> !p(s[j])
  {
    if p(s[0]) {
      assert s[0] == Filter(s, p)[0];
    } else {
      assert Filter(s, p) == Filter(s[1..], p);
      FilterFirst(s[1..], p);
      var i :| 0 <= i < |s[1..]| && s[1..][i] == Filter(s[1..], p)[0] && forall j :: 0 <= j < i ==> !p(s[1..][j]);
      assert s[i + 1] == Filter(s, p)[0];
      forall j | 0 <= j < i + 1
        ensures !p(s[j])
      {
        if j > 0 {
          assert s[j] == s[1..][j - 1];
        }
      }
    }
  }

  lemma PrecedesCons<T>(s: seq<T>, x: T, y: T)
    requires s != [] && Precedes(s[1..], x, y)
    ensures Precedes(s, x, y)
  {
    var a, c :| 0 <= a < c < |s[1..]| && s[1..][a] == x && s[1..][c] == y;
    assert s[a + 1] == x && s[c + 1] == y;
  }

  lemma PrecedesHead<T>(s: seq<T>, y: T)
    requires s != [] && y in s[1..]
    ensures Precedes(s, s[0], y)
  {
    var c :| 0 <= c < |s[1..]| && s[1..][c] == y;
    assert s[c + 1] == y;
  }

  /** The `i`th and `j`th selected elements, `i < j`, come from increasing positions of `s`. */
  lemma {:induction false} FilterOrderedAt<T(!new)>(s: seq<T>, p: T -> bool, i: nat, j: nat)
    requires i < j < |Filter(s, p)|
    ensures Precedes(s, Filter(s, p)[i], Filter(s, p)[j])
  {
    var r, r' := Filter(s, p), Filter(s[1..], p);
    if p(s[0]) {
      assert r == [s[0]] + r';
      if i == 0 {
        assert r[j] == r'[j - 1] && r'[j - 1] in r';
        PrecedesHead(s, r[j]);
      } else {
        FilterOrderedAt(s[1..], p, i - 1, j - 1);
        PrecedesCons(s, r[i], r[j]);
      }
    } else {
      assert r == r';
      FilterOrderedAt(s[1..], p, i, j);
      PrecedesCons(s, r[i], r[j]);
    }
  }

  /** Selected elements keep their relative order: any two come from increasing positions of `s`. */
  lemma FilterOrdered<T(!new)>(s: seq<T>, p: T -> bool)
    ensures forall i, j :: 0 <= i < j < |Filter(s, p)| ==> Precedes(s, Filter(s, p)[i], Filter(s, p)[j])
  {
    forall i, j | 0 <= i < j < |Filter(s, p)|
      ensures Precedes(s, Filter(s, p)[i], Filter(s, p)[j])
    {
      FilterOrderedAt(s, p, i, j);
    }
  }
}

=== FILE: wrappers.dfy ===
/** Option and Result, the two wrappers the model returns. */
module Wrappers {

  /** A value that may be absent: an unset request field, a lookup that found nothing. */
  datatype Option<+T> = None | Some(value: T)

  /** The outcome of a controller: the new state on success, the reported error otherwise. */
  datatype Result<+R, +E> = Success(value: R) | Failure(error: E)
}
